=== FILE: README.md ===
# Topic-filtered speech corpus: selection, loading and enrichment

This project models the data-preparation core of HCSS_Assessment. That core builds a table of
parliamentary speeches about AI and military technology, each with a sentiment score and the
speaker's metadata. It has three stages:

- **Selection** (`process_data.py`). `contains_keyword` searches a text for any keyword as a
  case-insensitive whole word: the regex `\b` + escaped keyword + `\b`. `process_text_line`
  splits a line at its first whitespace run and searches only the text after the identifier.
  `process_file` strips every line, skips blank ones and flags the rest. `get_documents` lists
  the `.txt` files of the speech folder. It appends a file's path once for every flagged line
  of that file, not once per file.
- **Loading** (`get_tables`). Every selected document is read as tab-split rows. Its companion
  `-meta.tsv` file is read the same way and transposed: the first line names the columns and
  every later line becomes one row. At the end the speech table is given the columns ID and Text.
- **Enrichment** (`prepare_full_tables`). Every speech row is flagged with a fixed alternation of
  thirteen word-bounded topic patterns, and flagged rows get sentiment scores. Repeated IDs are
  dropped from both tables, keeping the first row of each. The speech rows are left-joined to
  the metadata on ID. Only the flagged rows are kept, and Age, is_female and Month are derived
  for them.

Modules:

- `Wrappers`: `Option` and `Result`.
- `Text`: the Python `str` operations the scripts rely on.
- `Keywords`: the regex semantics of the selection pass.
- `Selector`: `process_file` and `get_documents`, as methods with loops.
- `Tables`: `get_tables`, as a method with a loop.
- `Topics`: the combined topic pattern.
- `Pipeline`: `prepare_full_tables`.
- `Scenario`: a worked end-to-end run. Two one-line documents with the topics "military" and
  "drone" yield exactly one enriched row, flagged and scored.

The file system is a map from path to the file's lines. The folder listing is a sequence of
names in the order the operating system returns them. The sentiment analyser is a function
parameter. Every exception that these modelled inputs can raise is a `Failure` value returned
in a `Result`. Exceptions that lie outside this representation are not modelled:
- decoding errors, a missing folder, or a listed entry that cannot be opened (see "## Left out");
- the TypeError described under "Deviation" below.

Where the code behaves differently from what one might expect, the model follows the code:

- **Escaping.** Selection keywords are escaped with `re.escape`, so they match literally.
- **Repeated paths.** A document appears in the selection once per flagged line, not once.
- **Month range.** Month is not range-checked: a Date of `2022-13-01` gives 13.
- **Every ".txt" is replaced.** The metadata path replaces each ".txt" in the document path,
  not only the extension.

### Deviation: passing the topics

As written, the pipeline cannot run:

- `get_documents` (`process_data.py:61`) takes `topics`, with no default.
- `get_tables` calls it without an argument (`prepare_tables.py:10`). So every call of
  `get_tables`, and of `prepare_full_tables` through it (`prepare_tables.py:56`), raises
  TypeError before any file is read.
- `create_data.py:14` passes `topics=` to `prepare_full_tables`, which takes no parameter.
  That is a second TypeError.

The model does not follow the code here. `GetTables` and `PrepareFullTables` take the topics
and hand them to the selection, as the caller at `create_data.py:14` intends. The enrichment
pattern is the fixed list at `prepare_tables.py:59-77` and does not depend on the topics.

## Model

| member | source | states |
|---|---|---|
| Keywords.SearchFrom | process_data.py:16-17 | scanning start positions from `i` finds a match exactly when `\bk\b` matches at some position at or after `i` |
| Keywords.Search | process_data.py:16-17 | `re.search` of the word-bounded, escaped keyword succeeds exactly when the keyword occurs as a whole word somewhere in the text |
| Keywords.ContainsKeyword | process_data.py:5-19 | true exactly when some keyword of the list occurs as a case-insensitive whole word of the text |
| Keywords.NoKeywords | process_data.py:14-19 | with no keywords the answer is False |
| Keywords.KeywordOrderIrrelevant | process_data.py:14-19 | the early return makes the verdict depend only on which keywords are given, not on their order or repetition |
| Keywords.MoreKeywords | process_data.py:14-19 | adding keywords never turns a hit into a miss |
| Keywords.EmptyTextHasNoWord | process_data.py:16-17 | the empty text matches no keyword, not even the empty one |
| Keywords.AbsentInitial | process_data.py:16-17 | a keyword whose first letter, ignoring case, never appears in the text is not found |
| Keywords.AiIsAWordNotASubstring | process_data.py:16-17 | "ai" is found in "We discussed AI today" (ignoring case) but not inside "said" (word boundaries) |
| Keywords.EscapedKeywordIsLiteral | process_data.py:16 | the escaped keyword "a.b" matches "a.b" but not "axb" |
| Keywords.ProcessTextLine | process_data.py:22-37 | a line that `split(None, 1)` does not cut into two parts is never flagged |
| Keywords.ProcessTextLineSearchesText | process_data.py:32-37 | for leading space, identifier, whitespace gap and text, the flag is exactly `contains_keyword` of the text; the identifier is never searched |
| Keywords.IdentifierIsNotSearched | process_data.py:32-37 | a keyword that appears only as the identifier does not flag the line |
| Text.Strip | process_data.py:52 | the result is empty exactly when the line is all whitespace; otherwise it neither starts nor ends with whitespace |
| Text.StripPadded | process_data.py:52 | stripping removes exactly the whitespace around a core that neither starts nor ends with whitespace |
| Text.SplitFirstWord | process_data.py:32 | at most two parts: none for an all-whitespace line, a whitespace-free first word, and a rest that does not start with whitespace |
| Text.SplitFirstWordOf | process_data.py:32 | leading space, word, gap and rest are split back into `[word]` or `[word, rest]` |
| Text.SplitOn | prepare_tables.py:24 | `split('\t')` gives one more piece than there are tabs; the pieces hold no tab and join back to the line |
| Text.SplitJoin | prepare_tables.py:24 | splitting a join of tab-free pieces gives the pieces back |
| Text.ReplaceAll | prepare_tables.py:31 | replacing a pattern by a text at least as long never makes the string shorter |
| Text.ReplaceAllFirst | prepare_tables.py:31 | the first occurrence is replaced and the scan resumes right after it, so later occurrences are replaced too |
| Text.ReplaceAllFree | prepare_tables.py:31 | a string in which the pattern never occurs is returned unchanged |
| Text.ReplaceAllAtEnd | prepare_tables.py:31 | when the pattern occurs only at the very end, `replace` changes just that occurrence |
| Text.ParseDigits | prepare_tables.py:121 | a number is read exactly from a non-empty run of decimal digits |
| Text.ParseDecimal | prepare_tables.py:121 | the decimal spelling of every natural number is read back as that number |
| Text.ParseSigned | prepare_tables.py:121 | a number is read exactly from a digit run, or from '-' or '+' followed by a digit run; the value is the digits' value, negated after '-' |
| Text.IntLiteral | prepare_tables.py:124 | a literal is read exactly from digits with single underscores between them, optionally after one '-' or '+' |
| Text.IntLiteralValue | prepare_tables.py:124 | a literal's value is its digits' value with underscores skipped, negated after '-' |
| Text.PythonInt | prepare_tables.py:124 | `int(...)` of an all-whitespace string raises |
| Text.PythonIntDigits | prepare_tables.py:124 | `int(...)` of a run of decimal digits is the value of the digits |
| Text.PythonIntNegative | prepare_tables.py:124 | `int(...)` reads '-' followed by the decimal spelling of a number as the negated number |
| Text.PythonIntDecimal | prepare_tables.py:124 | `int(...)` reads back the decimal spelling of every natural number |
| Selector.PathOf | process_data.py:74 | the path is the folder, a '/', then the file name |
| Selector.PathOfInjective | process_data.py:74 | distinct file names give distinct paths |
| Selector.NonBlank | process_data.py:50-55 | at most one line per line read, and none of them empty |
| Selector.NonBlankAppend | process_data.py:50-55 | the kept lines of two parts of a file are those of each part, in order |
| Selector.FileResultsStep | process_data.py:50-57 | reading one more line adds its (line, flag) pair exactly when the stripped line is not blank |
| Selector.FileResults | process_data.py:40-58 | at most one pair per line read; each pair is a non-empty line and its `process_text_line` flag |
| Selector.ProcessFile | process_data.py:40-58 | one pair per non-blank line, in file order: the stripped line and its `process_text_line` flag |
| Selector.MatchingLinesFlagged | process_data.py:75-81 | the number of paths the inner loop appends for a file equals the number of flagged pairs `process_file` returns |
| Selector.AppendFlagged | process_data.py:78-81 | the inner loop appends the path once for every flagged pair and changes nothing else |
| Selector.TxtNames | process_data.py:71 | exactly the listed names that end in ".txt", taken from the listing |
| Selector.TxtNamesAppend | process_data.py:71 | the `.txt` names of two parts of a listing are those of each part, in listing order |
| Selector.TxtNamesDistinct | process_data.py:71 | filtering a listing without repeats gives names without repeats |
| Selector.GetDocuments | process_data.py:61-83 | the result is the path of every listed `.txt` file, repeated once per flagged line, in listing order |
| Selector.Documents | process_data.py:73-81 | the reference selection holds only folder paths of the given file names |
| Selector.DocumentsStep | process_data.py:73-81 | one more file of the listing appends its path once for each of its flagged lines |
| Selector.DocumentsAppend | process_data.py:73-83 | the documents of a listing are those of its parts, in order |
| Selector.SelectionAppend | process_data.py:61-83 | the selection of a listing is the selection of its first part followed by that of its second |
| Selector.DocumentsArePaths | process_data.py:71-80 | every returned path is a `.txt` path of the folder whose name was listed |
| Selector.ExpandCount | process_data.py:78-81 | when a path is given only once, it appears exactly as many times as its count says |
| Selector.DocumentsCount | process_data.py:73-81 | for a listing without repeats, each file's path appears exactly as many times as the file has flagged lines, and an unlisted one not at all |
| Selector.Selected | process_data.py:61-83 | a path is returned exactly when its name is a listed `.txt` file with at least one flagged line |
| Tables.TabRows | prepare_tables.py:24 | one row per line, each line split at every tab |
| Tables.TabRowsStep | prepare_tables.py:18-25 | reading one more line appends its tab-split row exactly when the stripped line is not blank |
| Tables.ReadRows | prepare_tables.py:16-25 | every non-blank line, stripped and split at every tab, in file order |
| Tables.MetaPath | prepare_tables.py:31 | the metadata path is never shorter than the document path |
| Tables.MetaPathOfOther | prepare_tables.py:31 | a path without ".txt" is its own metadata path |
| Tables.MetaPathOfTwoTxt | prepare_tables.py:31 | a path with ".txt" both inside it and at its end gets "-meta.tsv" in both places |
| Tables.MetaPathOfTxt | prepare_tables.py:31 | for a path whose only ".txt" is its extension, the metadata file is the sibling `-meta.tsv` |
| Tables.Zip | prepare_tables.py:43 | every column of a metadata row is a name from the header line |
| Tables.ZipLookup | prepare_tables.py:43 | a row's value under a column is the field at that column's first position |
| Tables.ZipMissing | prepare_tables.py:43 | a column past the end of a short line has no value in that row |
| Tables.ZipAll | prepare_tables.py:43 | every later line becomes one row under the header |
| Tables.MetaFrame | prepare_tables.py:43 | an empty file has no header and fails; otherwise the columns are the header's names and line k becomes row k-1 |
| Tables.Concat | prepare_tables.py:45 | `pd.concat` puts the rows of the first table before those of the second and keeps the columns of both |
| Tables.LoadOne | prepare_tables.py:14-45 | a missing metadata file fails with FileNotFound; on success the document's tab-split rows are appended to the speech rows |
| Tables.LoadOneFails | prepare_tables.py:14-45 | one document fails exactly when its metadata file is missing or all blank; otherwise each later metadata line adds one row |
| Tables.LoadOneMeta | prepare_tables.py:31-45 | an all-blank metadata file fails with NoHeaderLine; on success the metadata table is the one read so far followed by this file's rows under its own header |
| Tables.LoadDocuments | prepare_tables.py:14-45 | every accumulated speech row has at least one field |
| Tables.LoadStep | prepare_tables.py:14-45 | one more document either keeps the earlier failure or loads this document onto the accumulated tables |
| Tables.LoadFailureSticks | prepare_tables.py:14-45 | once a document has failed, the whole loop fails with that exception |
| Tables.MaxWidth | prepare_tables.py:27-29 | the concatenated table is as wide as its longest row (0 when it has no rows) |
| Tables.AssignColumns | prepare_tables.py:47 | naming the columns ID and Text succeeds exactly when the table is two wide; a row without a tab has no Text |
| Tables.ExtraTabFails | prepare_tables.py:47 | a line with two or more tabs makes the table at least three wide, so naming the columns fails |
| Tables.DocumentsInFs | prepare_tables.py:14-17 | every selected document can be opened |
| Tables.TablesOf | prepare_tables.py:8-48 | no document fails naming the columns of an empty table; otherwise success exactly when loading succeeds and the speech table is two wide, keeping every row and the metadata |
| Tables.TablesOfRows | prepare_tables.py:47 | on success the speech table is the loaded rows under the columns ID and Text |
| Tables.GetTables | prepare_tables.py:8-48 | the loop's result equals the reference loader over the selected documents, failures included |
| Topics.AnyEnding | prepare_tables.py:65-72 | an alternative with optional endings matches when some ending completes its stem to a whole word |
| Topics.AnyAlternative | prepare_tables.py:80-85 | the alternation matches exactly when some alternative, with one of its endings, occurs as a whole word |
| Topics.ContainsTopic | prepare_tables.py:59-88 | `contains_topic` is true exactly when one of the thirteen patterns occurs as a whole word |
| Topics.Completions | prepare_tables.py:65 | every ending gives the stem followed by that ending |
| Topics.WordsMembership | prepare_tables.py:59-77 | the words of the pattern list are exactly the stems with their endings |
| Topics.AlternationIsKeywordSearch | prepare_tables.py:80-85 | searching an alternation is the same as `contains_keyword` over the literal words it spells |
| Topics.ContainsTopicIsKeywordSearch | prepare_tables.py:84-85 | `contains_topic` is `contains_keyword` over the words of the topic pattern |
| Topics.DronesIsTopic | prepare_tables.py:72 | "Drones" at the start of a text is a topic, through the optional `s` and case folding |
| Topics.TechnologiesIsTopic | prepare_tables.py:65 | "military technologies" at the end of a text is a topic, through the `ies` ending |
| Topics.ShortestAlternatives | prepare_tables.py:59-77 | every alternative except `ai` spells words of at least five letters |
| Topics.SaidIsNoTopic | prepare_tables.py:63 | "said" matches none of the patterns |
| Topics.PluralOnlyMatchedByTopic | prepare_tables.py:72 | "drones" misses the selection keyword "drone" but matches the topic pattern, so the two passes can disagree |
| Pipeline.Flag | prepare_tables.py:84-103 | fails exactly when a row has no Text, with the first such row; otherwise each row is flagged by `contains_topic` and scored only when flagged |
| Pipeline.DedupSeen | prepare_tables.py:113-114 | keeps only input rows whose key was not seen, with pairwise distinct keys |
| Pipeline.Dedup | prepare_tables.py:113-114 | `drop_duplicates` keeps only input rows and leaves pairwise distinct keys |
| Pipeline.DedupSeenCovers | prepare_tables.py:113-114 | every key of the input is either already seen or the key of a kept row |
| Pipeline.DedupCovers | prepare_tables.py:113-114 | every key of the input is the key of some kept row |
| Pipeline.DedupSeenSnoc | prepare_tables.py:113-114 | one more row is kept exactly when its key was neither seen nor used earlier |
| Pipeline.DedupKeepsFirst | prepare_tables.py:113-114 | `drop_duplicates` equals the reference "first row of every key, in order" |
| Pipeline.FirstOfKeysAreFirst | prepare_tables.py:113-114 | every row the reference keeps is the first of its key |
| Pipeline.FirstOfKeysMember | prepare_tables.py:113-114 | the first row of every key is kept |
| Pipeline.FirstMatch | prepare_tables.py:115 | the index of the first metadata row with the ID, or none when no row has it |
| Pipeline.MetaOf | prepare_tables.py:115 | with no matching metadata every column is missing; otherwise a metadata row with that ID |
| Pipeline.LeftJoin | prepare_tables.py:115 | one joined row per speech row, in order, carrying the metadata of its ID |
| Pipeline.UniqueMeta | prepare_tables.py:113-115 | with unique IDs the joined metadata is the one row with the ID |
| Pipeline.DedupThenJoin | prepare_tables.py:113-115 | dropping repeated metadata IDs first attaches the first metadata row with the ID |
| Pipeline.Contained | prepare_tables.py:117-118 | the filter keeps exactly the flagged rows, in order |
| Pipeline.ContainedAppend | prepare_tables.py:117-118 | filtering two parts of a table is filtering each part, in order |
| Pipeline.ContainedDistinct | prepare_tables.py:117-118 | filtering keeps IDs distinct |
| Pipeline.Combine | prepare_tables.py:113-118 | every combined row is flagged and comes from the flagged speech rows |
| Pipeline.CombineRow | prepare_tables.py:113-118 | a combined row is flagged, is the first row with its ID, and carries the first metadata row with that ID |
| Pipeline.CombineDistinct | prepare_tables.py:113-118 | one combined row per ID |
| Pipeline.CombineComplete | prepare_tables.py:113-118 | the first flagged row of every ID is combined |
| Pipeline.Age | prepare_tables.py:120-121 | Age is missing exactly when the birth year is missing or not a number; otherwise Age plus birth year is 2022 |
| Pipeline.AgeOfYear | prepare_tables.py:120-121 | a birth year written in digits gives 2022 minus that year |
| Pipeline.AgeOfText | prepare_tables.py:120-121 | in the model's reading of `to_numeric`, a birth year with no digit gives a missing Age, not a failure (inf/infinity excepted in the source; see Pipeline.Age under Left out) |
| Pipeline.AgeOfMixed | prepare_tables.py:120-121 | in the model's reading of `to_numeric`, a birth year with a non-digit after its first character gives a missing Age (decimals, exponents and signed inf excepted in the source; see Pipeline.Age under Left out) |
| Pipeline.IsFemale | prepare_tables.py:122 | is_female is true exactly when Speaker_gender is "F", and false when the column is missing |
| Pipeline.Month | prepare_tables.py:123-124 | a failure is DateMissing for the row's ID, NoMonthField or MonthNotInteger; a success is `int` of the second '-'-separated field of Date |
| Pipeline.MonthCases | prepare_tables.py:123-124 | Month fails on a missing Date, and on a Date without '-'; a success is `int` of the second dash-separated field |
| Pipeline.DeriveRows | prepare_tables.py:120-124 | on success, one derived row per joined row, with Age, is_female and the Month of its Date |
| Pipeline.DeriveRowsFails | prepare_tables.py:123-124 | deriving fails exactly when some row's Date gives no month, and then with the first such row's exception |
| Pipeline.DeriveRowsMember | prepare_tables.py:120-124 | every derived row comes from a joined row whose Date gives its Month |
| Pipeline.Derive | prepare_tables.py:120-124 | a column the metadata never had fails in the order Speaker_birth, Speaker_gender, Date, even with no rows; otherwise rows are derived |
| Pipeline.Enrich | prepare_tables.py:84-124 | success needs every row flagged, an ID column and no metadata column named contains_topic; with such a column, line 117 fails on the missing column |
| Pipeline.FullTables | prepare_tables.py:51-125 | a loading failure is passed on unchanged; a success is the enrichment of the loaded tables |
| Pipeline.PrepareFullTables | prepare_tables.py:51-125 | the method's result equals loading the selected documents and then enriching them |
| Pipeline.EnrichFailures | prepare_tables.py:84-121 | a row without Text fails first; then a metadata table without ID; then a metadata column named contains_topic; then a missing Date column |
| Pipeline.EnrichRows | prepare_tables.py:84-125 | every returned row is flagged and scored on its text, is the first speech row of its ID, and carries its ID's first metadata row and the columns derived from it |
| Pipeline.FirstIdOfSpeech | prepare_tables.py:84-114 | flagging keeps row order, so the first flagged row of an ID is the first speech row of that ID |
| Pipeline.EnrichDistinct | prepare_tables.py:113-118 | the returned table has one row per ID |
| Pipeline.EnrichOk | prepare_tables.py:84-124 | a successful pass flagged every row, found an ID column and derived the combined rows |
| Pipeline.FlaggedTopic | prepare_tables.py:84-88 | the first speech row of an ID whose text matches a topic becomes the first flagged row of that ID |
| Pipeline.EnrichComplete | prepare_tables.py:84-125 | no topical speech is lost: the first row of every ID whose text matches a topic is returned |
| Pipeline.DerivedComplete | prepare_tables.py:113-124 | the first flagged row of an ID that matches a topic is among the derived rows |
| Pipeline.DerivedMember | prepare_tables.py:120-124 | every joined row gives a derived row with its ID and text |
| Pipeline.DerivedRow | prepare_tables.py:120-124 | the n-th derived row carries the ID and text of the n-th joined row |
| Pipeline.MonthOfDate | prepare_tables.py:123-124 | a year-month-day Date gives the month's digits as the Month, with no range check |
| Pipeline.DateFields | prepare_tables.py:124 | a year-month-day Date splits at '-' into its three fields |
| Pipeline.MonthOfWrittenDate | prepare_tables.py:123-124 | a Date written from numbers gives back its month |
| Pipeline.MonthOfYearOnly | prepare_tables.py:123-124 | a Date without '-' (a bare year) fails at the index into the split |
| Scenario.OneLineFile | process_data.py:40-58 | a file with one line `ident<TAB>text` has one flagged line exactly when the text contains a keyword |
| Scenario.FirstTextMatches | process_data.py:5-19 | "The military uses drones today." contains the keyword "military" and matches the topic pattern |
| Scenario.MilitaryAsWord | process_data.py:5-19 | "military" standing as a word is a selection keyword and a topic |
| Scenario.SecondTextMisses | process_data.py:5-19 | "The weather was nice." contains neither "military" nor "drone" |
| Scenario.TwoDocuments | process_data.py:73-83 | the selection of two listed files is each path repeated once per flagged line, in listing order |
| Scenario.OneOfTwo | process_data.py:61-83 | of two one-line files, only the one whose text names a keyword is selected, once |
| Scenario.ScenarioSelection | process_data.py:61-83 | of the two documents, only the first is selected, once |
| Scenario.SpeechFile | prepare_tables.py:16-25 | the speech line reads as the row [ID, text] |
| Scenario.MetaFile | prepare_tables.py:32-43 | a header line and one value line give one metadata row under the header's columns |
| Scenario.ZipSpeaker | prepare_tables.py:43 | the value line puts each field under its column |
| Scenario.MetaPathOfName | prepare_tables.py:31 | the metadata file of `a.txt` is `a-meta.tsv` in the same folder |
| Scenario.LoadSingle | prepare_tables.py:14-45 | loading one document gives its speech rows and its metadata table |
| Scenario.AssignSingle | prepare_tables.py:47 | one two-field row gives the speech row with that ID and Text |
| Scenario.SingleDocumentTables | prepare_tables.py:8-48 | one selected document gives one speech row and its one metadata row |
| Scenario.ScenarioTables | prepare_tables.py:8-48 | the loaded tables of the selected document are its speech and its metadata |
| Scenario.FlagOne | prepare_tables.py:84-103 | a single row with Text is flagged and scored as `contains_topic` says |
| Scenario.DedupOne | prepare_tables.py:113-114 | a single row survives `drop_duplicates` |
| Scenario.DeriveOne | prepare_tables.py:120-124 | a single row whose Date gives a month derives one row |
| Scenario.ScenarioMonth | prepare_tables.py:123-124 | a Date of the form `2022-03-15` gives Month 3 |
| Scenario.ScenarioAge | prepare_tables.py:120-121 | a birth year of 1970 gives Age 52 |
| Scenario.SpeakerFacts | prepare_tables.py:120-124 | the speaker's metadata has ID "1", gender "F", Age 52 and Month 3 |
| Scenario.EnrichOne | prepare_tables.py:84-124 | one topical speech with matching metadata gives one enriched row |
| Scenario.TopicalSpeaker | prepare_tables.py:113-125 | a topical speech with ID "1" joined to its speaker's row gives one row: flagged, scored, Age 52, female, Month 3 |
| Scenario.ScenarioEnrichment | prepare_tables.py:84-125 | the first speech is flagged and scored, and ends up as the only row of the table |
| Scenario.ScenarioRun | prepare_tables.py:51-125 | the whole run on the two documents with topics "military" and "drone" gives exactly one row: ID "1", flagged, scored, Age 52, female, Month 3 |

## Left out

- Word characters and case folding are ASCII only. Python's Unicode `\w` and its case-insensitive matching of non-ASCII letters are not modelled.
- The regex engine is not modelled as such. Each pattern is a word-bounded literal, or a stem with optional endings; that is all the patterns in the source use.
- The sentiment analyser (VADER) is a function parameter, and `nltk.download` is left out. Both are foreign code and network I/O.
- Files are a map from path to lines, and the folder is a list of names. The `open` calls, the UTF-8 decoding and the line iteration are I/O.
- pandas dtypes, NaN and the index are abstracted. A missing value is an `Option` or an absent map key. The four sentiment columns are one `Option<Scores>`. The `reset_index`/`drop` steps at lines 105 and 117-118 only renumber the index and are not modelled.
- Line 111 computes a filtered frame and discards it. It has no effect and is not modelled.
- Merge suffixes: the merge at line 115 renames a column that both tables have, other than ID, to `_x`/`_y`. The speech side has Text, contains_topic, neg, neu, pos and compound. A metadata column named contains_topic makes line 117 raise KeyError; `Pipeline.Enrich` models this as the MissingColumn failure. For the other five names the renaming is not modelled: an enriched row keeps the speech text and scores in their own fields and the metadata value under its own name.
- A metadata column named `index` would be dropped by the `reset_index().drop` at line 118, and one named Age, is_female or Month would be overwritten at lines 120-124. The model keeps the metadata row as read and the derived values in their own fields.
- Tables.Zip: a metadata header that repeats a column name keeps the first value, where pandas would keep both columns. Fields past the header's width are dropped, where pandas keeps them under a column labelled None (NaN in shorter rows).
- Pipeline.Age: `pd.to_numeric` also accepts decimals, exponents and surrounding whitespace. It also accepts the spellings inf and infinity, in any case and optionally signed, which give an infinite Age. The model reads only an optional sign and decimal digits, and any other birth year is a missing Age. Age is an integer, so an infinite Age cannot be represented.
- Text.ParseSigned: reads only the sign-and-digits subset of what `pd.to_numeric` accepts. The rest is listed under Pipeline.Age.
- Text.PythonInt: `int` also accepts non-ASCII decimal digits. The model reads ASCII digits with underscores only.
- Selector.GetDocuments: requires every listed `.txt` name to be a readable file. `os.listdir` lists only existing entries, so a missing file cannot occur. The requirement also excludes these cases, where `open` raises and the model has no failure:
  - a listed subdirectory whose name ends in `.txt`;
  - a file without read permission;
  - a file that is not valid UTF-8.

  A missing speech folder, which makes `os.listdir` raise, is not modelled either.
- Tables.GetTables: requires the same readable listing as `GetDocuments`. A missing `-meta.tsv` file is modelled as the FileNotFound failure.
- The TypeError the source raises as written (`get_documents` called without its topics) is not modelled. The topics are passed instead, as described under "Deviation".
- front_end.py (the dashboard) and create_data.py (the CSV export) are not part of this model.

=== FILE: keywords.dfy ===
/**
  Whole-word keyword search (`contains_keyword`) and the per-line test on the text after the
  identifier (`process_text_line`). A keyword is searched as the pattern `\b` + escaped keyword
  + `\b` under IGNORECASE, so it matches literally, case-insensitively, where both of its ends
  are word boundaries.
*/
module Keywords {
  import opened Text

  /** Characters of the regex class `\w` (ASCII letters, digits and underscore). */
  predicate IsWordChar(c: char) {
    ('a' <= c <= 'z') || ('A' <= c <= 'Z') || ('0' <= c <= '9') || c == '_'
  }

  /** The case folding IGNORECASE compares characters under (ASCII lower-casing). */
  function Fold(c: char): char {
    if 'A' <= c <= 'Z' then (c as int + 32) as char else c
  }

  /** Position `i` holds a word character; anything outside the string does not. */
  predicate WordAt(s: string, i: int) {
    0 <= i < |s| && IsWordChar(s[i])
  }

  /** `\b` at position `i`: word-ness changes between the characters on either side. */
  predicate Boundary(s: string, i: int) {
    WordAt(s, i - 1) != WordAt(s, i)
  }

  /** The escaped keyword `k` matches `s` at `i`, character by character, ignoring case. */
  predicate LiteralAt(s: string, i: nat, k: string) {
    i + |k| <= |s| && forall j :: 0 <= j < |k| ==> Fold(s[i + j]) == Fold(k[j])
  }

  /** `\bk\b` matches `s` at `i`. */
  predicate WholeWordAt(s: string, i: nat, k: string) {
    Boundary(s, i) && LiteralAt(s, i, k) && Boundary(s, i + |k|)
  }

  /** `re.search(r'\b' + re.escape(k) + r'\b', s, re.IGNORECASE)` finds a match. */
  ghost predicate OccursAsWord(s: string, k: string) {
    exists i: nat :: i <= |s| && WholeWordAt(s, i, k)
  }

  /** The scan `re.search` performs: try every start position from `i` to the end of `s`. */
  function SearchFrom(s: string, k: string, i: nat): (found: bool)
    requires i <= |s| + 1
    ensures found <==> exists p: nat :: i <= p <= |s| && WholeWordAt(s, p, k)
    decreases |s| + 1 - i
  {
    if i > |s| then false
    else WholeWordAt(s, i, k) || SearchFrom(s, k, i + 1)
  }

  function Search(s: string, k: string): (found: bool)
    ensures found <==> OccursAsWord(s, k)
  {
    SearchFrom(s, k, 0)
  }

  /**
    `contains_keyword(text, keywords)`: the keywords are tried in order and the first hit
    returns True; the result is whether any keyword occurs as a whole word.
  */
  function ContainsKeyword(text: string, keywords: seq<string>): (r: bool)
    ensures r <==> exists k :: k in keywords && OccursAsWord(text, k)
  {
    if keywords == [] then false
    else Search(text, keywords[0]) || ContainsKeyword(text, keywords[1..])
  }

  /** With no keywords nothing is found. */
  lemma NoKeywords(text: string)
    ensures !ContainsKeyword(text, [])
  {
  }

  /** The verdict depends only on which keywords are given, not on their order or repetition. */
  lemma KeywordOrderIrrelevant(text: string, a: seq<string>, b: seq<string>)
    requires forall k :: k in a <==> k in b
    ensures ContainsKeyword(text, a) == ContainsKeyword(text, b)
  {
  }

  /** Adding keywords never turns a hit into a miss. */
  lemma MoreKeywords(text: string, a: seq<string>, b: seq<string>)
    requires forall k :: k in a ==> k in b
    ensures ContainsKeyword(text, a) ==> ContainsKeyword(text, b)
  {
  }

  /** The empty text contains no keyword, not even the empty one (`\b\b` needs a word character). */
  lemma EmptyTextHasNoWord(k: string)
    ensures !OccursAsWord([], k)
  {
    forall i: nat | i <= 0 ensures !WholeWordAt([], i, k) {
      assert !Boundary([], i);
    }
  }

  /** A keyword whose folded first character never appears in `s` cannot occur in it. */
  lemma {:induction false} AbsentInitial(s: string, k: string)
    requires k != []
    requires forall i :: 0 <= i < |s| ==> Fold(s[i]) != Fold(k[0])
    ensures !OccursAsWord(s, k)
  {
    forall i: nat | i <= |s| ensures !LiteralAt(s, i, k) {
      if i < |s| {
        assert Fold(s[i + 0]) != Fold(k[0]);
      }
    }
  }

  /** "ai" is found as a word in "We discussed AI today", but not inside "said". */
  lemma AiIsAWordNotASubstring()
    ensures ContainsKeyword("We discussed AI today", ["ai"])
    ensures !ContainsKeyword("said", ["ai"])
  {
    assert WholeWordAt("We discussed AI today", 13, "ai");
    var s := "said";
    forall i: nat | i <= |s| ensures !WholeWordAt(s, i, "ai") {
      if i == 0 {
        assert Fold(s[0]) != Fold('a');
      } else if i == 1 {
        assert WordAt(s, 0) && WordAt(s, 1);
      } else if i == 2 {
        assert Fold(s[2]) != Fold('a');
      } else {
        assert i + 2 > |s|;
      }
    }
  }

  /** Keywords are escaped: the '.' in "a.b" matches only a dot. */
  lemma EscapedKeywordIsLiteral()
    ensures ContainsKeyword("see a.b here", ["a.b"])
    ensures !ContainsKeyword("axb", ["a.b"])
  {
    assert WholeWordAt("see a.b here", 4, "a.b");
    var s := "axb";
    forall i: nat | i <= |s| ensures !LiteralAt(s, i, "a.b") {
      if i == 0 {
        assert Fold(s[0 + 1]) != Fold("a.b"[1]);
      } else {
        assert i + |"a.b"| > |s|;
      }
    }
  }

  /**
    `process_text_line(line, keywords)`: split off the identifier at the first whitespace run
    and search only the rest; a line without a second part is never a hit.
  */
  function ProcessTextLine(line: string, keywords: seq<string>): (found: bool)
    ensures |SplitFirstWord(line)| < 2 ==> !found
  {
    var parts := SplitFirstWord(line);
    if |parts| < 2 then false else ContainsKeyword(parts[1], keywords)
  }

  /**
    For a line made of an identifier, whitespace and text, the verdict is exactly whether the
    text contains a keyword: the identifier is never searched.
  */
  lemma ProcessTextLineSearchesText(lead: string, ident: string, gap: string, text: string, keywords: seq<string>)
    requires AllSpace(lead) && AllSpace(gap)
    requires ident != [] && NoSpace(ident)
    requires text == [] || (gap != [] && !IsSpace(text[0]))
    ensures ProcessTextLine(lead + ident + gap + text, keywords) == ContainsKeyword(text, keywords)
  {
    SplitFirstWordOf(lead, ident, gap, text);
    if text == [] {
      forall k | k in keywords ensures !OccursAsWord(text, k) {
        EmptyTextHasNoWord(k);
      }
    }
  }

  /**
    A keyword that only appears as the identifier does not make the line a hit: "ai" followed
    by a tab and any text without an 'a' is not flagged.
  */
  lemma IdentifierIsNotSearched(text: string)
    requires text != [] && !IsSpace(text[0])
    requires forall i :: 0 <= i < |text| ==> Fold(text[i]) != 'a'
    ensures !ProcessTextLine("ai\t" + text, ["ai"])
  {
    assert "ai\t" + text == [] + "ai" + "\t" + text;
    ProcessTextLineSearchesText([], "ai", "\t", text, ["ai"]);
    AbsentInitial(text, "ai");
  }
}

=== FILE: pipeline.dfy ===
/**
  The enrichment pass (`prepare_full_tables`): flag every speech row with `contains_topic`,
  score the flagged ones, drop repeated IDs, attach each speech's metadata with a left join,
  keep the flagged rows and derive Age, is_female and Month. The sentiment scorer is a
  parameter; the topics only reach the document selection (see README).
*/
module Pipeline {
  import opened Wrappers
  import opened Text
  import opened Selector
  import opened Tables
  import opened Topics

  /** What the sentiment analyser returns for one text: the neg, neu, pos and compound columns. */
  datatype Scores = Scores(neg: real, neu: real, pos: real, compound: real)

  /**
    A speech row after the `contains_topic` column and the expanded sentiment columns are
    added; `scores == None` stands for the four columns all being missing.
  */
  datatype FlaggedRow = FlaggedRow(id: string, text: string, containsTopic: bool, scores: Option<Scores>)

  /** A row of the left join: the speech row and the metadata joined to it (empty when none). */
  datatype JoinedRow = JoinedRow(row: FlaggedRow, meta: MetaRow)

  /** A row of the returned table, with the derived columns. */
  datatype EnrichedRow = EnrichedRow(
    id: string, text: string, containsTopic: bool, scores: Option<Scores>,
    meta: MetaRow, age: Option<int>, isFemale: bool, month: int)

  // ---------------------------------------------------------------------------------------
  // Topic flag and sentiment

  function FlagRow(id: string, text: string, score: string -> Scores): FlaggedRow {
    var topic := ContainsTopic(text);
    FlaggedRow(id, text, topic, if topic then Some(score(text)) else None)
  }

  /**
    The `contains_topic` column and the sentiment columns, row by row. A row without Text
    makes the pattern search fail, and the first such row ends the run.
  */
  function Flag(rows: seq<SpeechRow>, score: string -> Scores): (r: Result<seq<FlaggedRow>, Failure>)
    ensures r.Err? <==> exists k :: 0 <= k < |rows| && rows[k].text.None?
    ensures r.Err? ==> exists k ::
      && 0 <= k < |rows| && rows[k].text.None? && r.error == TextMissing(rows[k].id)
      && (forall j :: 0 <= j < k ==> rows[j].text.Some?)
    ensures r.Ok? ==> |r.value| == |rows| && forall k :: 0 <= k < |rows| ==>
      && rows[k] == SpeechRow(r.value[k].id, Some(r.value[k].text))
      && r.value[k].containsTopic == ContainsTopic(r.value[k].text)
      && r.value[k].scores == (if r.value[k].containsTopic then Some(score(r.value[k].text)) else None)
  {
    if rows == [] then Ok([])
    else if rows[0].text.None? then Err(TextMissing(rows[0].id))
    else
      match Flag(rows[1..], score)
      case Err(e) =>
        assert forall k :: 1 <= k < |rows| ==> rows[k] == rows[1..][k - 1];
        Err(e)
      case Ok(rest) =>
        assert forall k :: 1 <= k < |rows| ==> rows[k] == rows[1..][k - 1];
        Ok([FlagRow(rows[0].id, rows[0].text.value, score)] + rest)
  }

  // ---------------------------------------------------------------------------------------
  // drop_duplicates(subset=[key])

  /** Scanning forward, keep a row when its key was not seen before. */
  function DedupSeen<R, K(==)>(rows: seq<R>, key: R -> K, seen: set<K>): (r: seq<R>)
    ensures forall x :: x in r ==> x in rows && key(x) !in seen
    ensures forall i, j :: 0 <= i < j < |r| ==> key(r[i]) != key(r[j])
  {
    if rows == [] then []
    else
      assert forall i :: 1 <= i < |rows| ==> rows[i] == rows[1..][i - 1];
      if key(rows[0]) in seen then DedupSeen(rows[1..], key, seen)
      else
        var rest := DedupSeen(rows[1..], key, seen + {key(rows[0])});
        var r := [rows[0]] + rest;
        assert forall i :: 1 <= i < |r| ==> r[i] == rest[i - 1];
        r
  }

  /**
    `drop_duplicates(subset=[key])`: keys become pairwise distinct and only rows of the input
    survive.
  */
  function Dedup<R, K(==)>(rows: seq<R>, key: R -> K): (r: seq<R>)
    ensures forall x :: x in r ==> x in rows
    ensures forall i, j :: 0 <= i < j < |r| ==> key(r[i]) != key(r[j])
  {
    DedupSeen(rows, key, {})
  }

  lemma {:induction false} DedupSeenCovers<R, K>(rows: seq<R>, key: R -> K, seen: set<K>, i: nat)
    requires i < |rows|
    ensures key(rows[i]) in seen || exists y :: y in DedupSeen(rows, key, seen) && key(y) == key(rows[i])
  {
    var r := DedupSeen(rows, key, seen);
    if key(rows[0]) in seen {
      if i > 0 {
        DedupSeenCovers(rows[1..], key, seen, i - 1);
        assert rows[1..][i - 1] == rows[i];
      }
    } else if i == 0 {
      assert r[0] == rows[0];
    } else {
      var seen' := seen + {key(rows[0])};
      DedupSeenCovers(rows[1..], key, seen', i - 1);
      var rest := DedupSeen(rows[1..], key, seen');
      assert r == [rows[0]] + rest;
      assert rows[1..][i - 1] == rows[i];
      if key(rows[i]) in seen {
      } else if key(rows[i]) == key(rows[0]) {
        assert r[0] == rows[0];
      } else {
        var y :| y in rest && key(y) == key(rows[i]);
        assert y in r;
      }
    }
  }

  /** No key is lost: every key of the input is the key of a kept row. */
  lemma DedupCovers<R, K>(rows: seq<R>, key: R -> K, i: nat)
    requires i < |rows|
    ensures exists y :: y in Dedup(rows, key) && key(y) == key(rows[i])
  {
    DedupSeenCovers(rows, key, {}, i);
  }

  /** Row `i` is the first row with its key. */
  predicate FirstOfKey<R, K(==)>(rows: seq<R>, key: R -> K, i: nat)
    requires i < |rows|
  {
    forall j :: 0 <= j < i ==> key(rows[j]) != key(rows[i])
  }

  /** Reference definition: the rows that are the first of their key, in their order. */
  function FirstOfKeys<R, K(==)>(rows: seq<R>, key: R -> K): seq<R> {
    if rows == [] then []
    else
      FirstOfKeys(rows[..|rows| - 1], key)
      + (if FirstOfKey(rows, key, |rows| - 1) then [rows[|rows| - 1]] else [])
  }

  lemma {:induction false} DedupSeenSnoc<R, K>(a: seq<R>, x: R, key: R -> K, seen: set<K>)
    ensures DedupSeen(a + [x], key, seen)
      == DedupSeen(a, key, seen)
         + (if key(x) in seen || (exists j :: 0 <= j < |a| && key(a[j]) == key(x)) then [] else [x])
  {
    if a != [] {
      assert (a + [x])[0] == a[0] && (a + [x])[1..] == a[1..] + [x];
      var seen' := if key(a[0]) in seen then seen else seen + {key(a[0])};
      DedupSeenSnoc(a[1..], x, key, seen');
      var inA := exists j :: 0 <= j < |a| && key(a[j]) == key(x);
      var inTail := exists j :: 0 <= j < |a[1..]| && key(a[1..][j]) == key(x);
      assert inA <==> key(a[0]) == key(x) || inTail by {
        if inTail {
          var j :| 0 <= j < |a[1..]| && key(a[1..][j]) == key(x);
          assert key(a[j + 1]) == key(x);
        }
        if inA {
          var j :| 0 <= j < |a| && key(a[j]) == key(x);
          if j > 0 { assert key(a[1..][j - 1]) == key(x); }
        }
      }
    } else {
      assert a + [x] == [x];
    }
  }

  /** `drop_duplicates` keeps exactly the first row of every key, in the original order. */
  lemma {:induction false} DedupKeepsFirst<R, K>(rows: seq<R>, key: R -> K)
    ensures Dedup(rows, key) == FirstOfKeys(rows, key)
  {
    if rows != [] {
      var a := rows[..|rows| - 1];
      var x := rows[|rows| - 1];
      assert rows == a + [x];
      DedupKeepsFirst(a, key);
      DedupSeenSnoc(a, x, key, {});
      assert FirstOfKey(rows, key, |rows| - 1) <==> !(exists j :: 0 <= j < |a| && key(a[j]) == key(x)) by {
        assert forall j :: 0 <= j < |a| ==> a[j] == rows[j];
      }
    }
  }

  /** Every row of the reference result is the first of its key. */
  lemma {:induction false} FirstOfKeysAreFirst<R, K>(rows: seq<R>, key: R -> K, x: R)
    requires x in FirstOfKeys(rows, key)
    ensures exists k :: 0 <= k < |rows| && rows[k] == x && FirstOfKey(rows, key, k)
  {
    var a := rows[..|rows| - 1];
    if x in FirstOfKeys(a, key) {
      FirstOfKeysAreFirst(a, key, x);
      var k :| 0 <= k < |a| && a[k] == x && FirstOfKey(a, key, k);
      assert rows[k] == x;
      assert forall j :: 0 <= j <= k ==> a[j] == rows[j];
    } else {
      assert rows[|rows| - 1] == x;
    }
  }

  // ---------------------------------------------------------------------------------------
  // merge(df, meta, on="ID", how="left")

  /** The ID of a metadata row; a row without one has a missing ID. */
  function MetaId(m: MetaRow): Option<string> {
    if "ID" in m then Some(m["ID"]) else None
  }

  function RowId(row: FlaggedRow): string {
    row.id
  }

  /** Index of the first metadata row with ID `id`, if any. */
  function FirstMatch(meta: seq<MetaRow>, id: string): (k: Option<nat>)
    ensures k.Some? ==> k.value < |meta| && MetaId(meta[k.value]) == Some(id)
    ensures k.Some? ==> forall j :: 0 <= j < k.value ==> MetaId(meta[j]) != Some(id)
    ensures k.None? ==> forall j :: 0 <= j < |meta| ==> MetaId(meta[j]) != Some(id)
  {
    if meta == [] then None
    else if MetaId(meta[0]) == Some(id) then Some(0)
    else
      match FirstMatch(meta[1..], id)
      case None => None
      case Some(k) => Some(k + 1)
  }

  /** The metadata a speech with ID `id` is joined to; every column is missing when none matches. */
  function MetaOf(meta: seq<MetaRow>, id: string): (m: MetaRow)
    ensures (forall j :: 0 <= j < |meta| ==> MetaId(meta[j]) != Some(id)) ==> m == map[]
    ensures (exists j :: 0 <= j < |meta| && MetaId(meta[j]) == Some(id)) ==> m in meta && MetaId(m) == Some(id)
  {
    match FirstMatch(meta, id)
    case None => map[]
    case Some(k) => meta[k]
  }

  /**
    The left join: one row per speech row, in order, each carrying the metadata row with its
    ID (the metadata has one row per ID by now) or none.
  */
  function LeftJoin(rows: seq<FlaggedRow>, meta: seq<MetaRow>): (r: seq<JoinedRow>)
    ensures |r| == |rows|
    ensures forall k :: 0 <= k < |rows| ==> r[k].row == rows[k] && r[k].meta == MetaOf(meta, rows[k].id)
  {
    seq(|rows|, k requires 0 <= k < |rows| => JoinedRow(rows[k], MetaOf(meta, rows[k].id)))
  }

  /** When IDs are unique, the row joined to a speech is the one metadata row with its ID. */
  lemma UniqueMeta(meta: seq<MetaRow>, id: string, k: nat)
    requires forall i, j :: 0 <= i < j < |meta| ==> MetaId(meta[i]) != MetaId(meta[j])
    requires k < |meta| && MetaId(meta[k]) == Some(id)
    ensures MetaOf(meta, id) == meta[k]
  {
    var f := FirstMatch(meta, id);
  }

  /** Dropping repeated metadata IDs first does not change what the join attaches. */
  lemma DedupThenJoin(meta: seq<MetaRow>, id: string)
    ensures MetaOf(Dedup(meta, MetaId), id) == MetaOf(meta, id)
  {
    var u := Dedup(meta, MetaId);
    DedupKeepsFirst(meta, MetaId);
    if exists j :: 0 <= j < |meta| && MetaId(meta[j]) == Some(id) {
      var m := MetaOf(meta, id);
      var k := FirstMatch(meta, id).value;
      FirstOfKeysMember(meta, MetaId, k);
      var i :| 0 <= i < |u| && u[i] == meta[k];
      UniqueMeta(u, id, i);
    } else {
      forall j | 0 <= j < |u| ensures MetaId(u[j]) != Some(id) {
        assert u[j] in meta;
      }
    }
  }

  /** The first row of a key is in the reference result. */
  lemma {:induction false} FirstOfKeysMember<R, K>(rows: seq<R>, key: R -> K, k: nat)
    requires k < |rows| && FirstOfKey(rows, key, k)
    ensures rows[k] in FirstOfKeys(rows, key)
  {
    var a := rows[..|rows| - 1];
    if k < |rows| - 1 {
      assert FirstOfKey(a, key, k) by {
        assert forall j :: 0 <= j <= k ==> a[j] == rows[j];
      }
      FirstOfKeysMember(a, key, k);
    }
  }

  // ---------------------------------------------------------------------------------------
  // Filter and derived columns

  /** `combined[combined["contains_topic"] == True]`: the flagged rows, in order. */
  function Contained(rows: seq<JoinedRow>): (r: seq<JoinedRow>)
    ensures |r| <= |rows|
    ensures forall x :: x in r <==> x in rows && x.row.containsTopic
  {
    if rows == [] then []
    else
      var init := Contained(rows[..|rows| - 1]);
      var last := rows[|rows| - 1];
      assert forall x :: x in rows <==> x in rows[..|rows| - 1] || x == last;
      init + (if last.row.containsTopic then [last] else [])
  }

  /** Filtering keeps IDs apart when they were apart. */
  lemma {:induction false} ContainedDistinct(rows: seq<JoinedRow>)
    requires forall i, j :: 0 <= i < j < |rows| ==> rows[i].row.id != rows[j].row.id
    ensures forall i, j :: 0 <= i < j < |Contained(rows)| ==> Contained(rows)[i].row.id != Contained(rows)[j].row.id
  {
    if rows != [] {
      var init := rows[..|rows| - 1];
      var last := rows[|rows| - 1];
      ContainedDistinct(init);
      var c := Contained(init);
      forall i | 0 <= i < |c| ensures c[i].row.id != last.row.id {
        assert c[i] in init;
        var m :| 0 <= m < |init| && init[m] == c[i];
        assert rows[m] == c[i];
      }
    }
  }

  /** The filter keeps the order of the rows: filtering a concatenation filters each part. */
  lemma {:induction false} ContainedAppend(a: seq<JoinedRow>, b: seq<JoinedRow>)
    ensures Contained(a + b) == Contained(a) + Contained(b)
    decreases |b|
  {
    if b == [] {
      assert a + b == a;
    } else {
      var b' := b[..|b| - 1];
      var last := b[|b| - 1];
      var ab := a + b;
      assert ab[..|ab| - 1] == a + b' && ab[|ab| - 1] == last;
      ContainedAppend(a, b');
      var tail := if last.row.containsTopic then [last] else [];
      assert Contained(ab) == Contained(a + b') + tail;
      assert Contained(b) == Contained(b') + tail;
    }
  }

  /** Lines 113-118: drop repeated IDs on both sides, join on ID, keep the flagged rows. */
  function Combine(flagged: seq<FlaggedRow>, meta: seq<MetaRow>): (r: seq<JoinedRow>)
    ensures forall jr :: jr in r ==> jr.row.containsTopic && jr.row in flagged
  {
    var rows := Dedup(flagged, RowId);
    var joined := LeftJoin(rows, Dedup(meta, MetaId));
    assert forall jr :: jr in joined ==> jr.row in rows by {
      forall jr | jr in joined ensures jr.row in rows {
        var k :| 0 <= k < |joined| && joined[k] == jr;
      }
    }
    Contained(joined)
  }

  /**
    A combined row is flagged, is the first flagged row with its ID, and carries the first
    metadata row with that ID (or none).
  */
  lemma CombineRow(flagged: seq<FlaggedRow>, meta: seq<MetaRow>, jr: JoinedRow)
    requires jr in Combine(flagged, meta)
    ensures jr.row.containsTopic
    ensures exists k :: 0 <= k < |flagged| && flagged[k] == jr.row && FirstOfKey(flagged, RowId, k)
    ensures jr.meta == MetaOf(meta, jr.row.id)
  {
    var rows := Dedup(flagged, RowId);
    var joined := LeftJoin(rows, Dedup(meta, MetaId));
    assert jr in joined;
    var i :| 0 <= i < |joined| && joined[i] == jr;
    DedupThenJoin(meta, rows[i].id);
    DedupKeepsFirst(flagged, RowId);
    FirstOfKeysAreFirst(flagged, RowId, rows[i]);
  }

  /** One combined row per ID. */
  lemma CombineDistinct(flagged: seq<FlaggedRow>, meta: seq<MetaRow>)
    ensures forall i, j :: 0 <= i < j < |Combine(flagged, meta)| ==>
      Combine(flagged, meta)[i].row.id != Combine(flagged, meta)[j].row.id
  {
    ContainedDistinct(LeftJoin(Dedup(flagged, RowId), Dedup(meta, MetaId)));
  }

  /** The first flagged row of every ID that matches a topic is combined. */
  lemma CombineComplete(flagged: seq<FlaggedRow>, meta: seq<MetaRow>, k: nat)
    requires k < |flagged| && FirstOfKey(flagged, RowId, k) && flagged[k].containsTopic
    ensures exists jr :: jr in Combine(flagged, meta) && jr.row == flagged[k]
  {
    var rows := Dedup(flagged, RowId);
    var joined := LeftJoin(rows, Dedup(meta, MetaId));
    DedupKeepsFirst(flagged, RowId);
    FirstOfKeysMember(flagged, RowId, k);
    var i :| 0 <= i < |rows| && rows[i] == flagged[k];
    assert joined[i] in joined;
  }

  /** The year Age is counted from. */
  const AgeYear := 2022

  /** `2022 - to_numeric(Speaker_birth, errors="coerce")`: missing when the birth year is. */
  function Age(meta: MetaRow): (age: Option<int>)
    ensures age.Some? <==> "Speaker_birth" in meta && ParseSigned(meta["Speaker_birth"]).Some?
    ensures age.Some? ==> age.value + ParseSigned(meta["Speaker_birth"]).value == AgeYear
  {
    if "Speaker_birth" in meta then
      match ParseSigned(meta["Speaker_birth"])
      case None => None
      case Some(year) => Some(AgeYear - year)
    else None
  }

  /** `Speaker_gender == "F"`; a missing gender compares unequal. */
  function IsFemale(meta: MetaRow): (female: bool)
    ensures "Speaker_gender" !in meta ==> !female
    ensures "Speaker_gender" in meta ==> (female <==> meta["Speaker_gender"] == "F")
  {
    "Speaker_gender" in meta && meta["Speaker_gender"] == "F"
  }

  /** `int(Date.split('-')[1])`, with the three ways it raises. */
  function Month(id: string, meta: MetaRow): (r: Result<int, Failure>)
    ensures r.Err? ==> r.error == DateMissing(id) || r.error.NoMonthField? || r.error.MonthNotInteger?
    ensures r.Ok? ==> "Date" in meta && |SplitOn(meta["Date"], '-')| >= 2
    ensures r.Ok? ==> PythonInt(SplitOn(meta["Date"], '-')[1]) == Some(r.value)
  {
    if "Date" !in meta then Err(DateMissing(id))
    else
      var fields := SplitOn(meta["Date"], '-');
      if |fields| < 2 then Err(NoMonthField(meta["Date"]))
      else
        match PythonInt(fields[1])
        case None => Err(MonthNotInteger(fields[1]))
        case Some(m) => Ok(m)
  }

  /**
    Month fails on a missing Date, on a Date without '-', and on a second field `int` rejects;
    otherwise it is the integer value of the field between the first and second '-'.
  */
  lemma MonthCases(id: string, meta: MetaRow)
    ensures "Date" !in meta <==> Month(id, meta) == Err(DateMissing(id))
    ensures "Date" in meta ==> ('-' !in meta["Date"] <==> Month(id, meta) == Err(NoMonthField(meta["Date"])))
    ensures Month(id, meta).Ok? ==> "Date" in meta && '-' in meta["Date"]
    ensures Month(id, meta).Ok? ==> PythonInt(SplitOn(meta["Date"], '-')[1]) == Some(Month(id, meta).value)
  {
    if "Date" in meta {
      CountZero(meta["Date"], '-');
    }
  }

  lemma CountZero(s: string, c: char)
    ensures Count(s, c) == 0 <==> c !in s
  {
    if c !in s {
      CountAbsent(s, c);
    } else {
      var i := IndexOf(s, c);
      CountAppend(s[..i], s[i..], c);
      assert s[..i] + s[i..] == s;
      CountAtLeastOne(s[i..], c);
    }
  }

  lemma CountAtLeastOne(s: string, c: char)
    requires s != [] && s[0] == c
    ensures Count(s, c) >= 1
  {
    CountAppend([s[0]], s[1..], c);
    assert [s[0]] + s[1..] == s;
  }

  function Enrich1(row: JoinedRow, month: int): EnrichedRow {
    EnrichedRow(row.row.id, row.row.text, row.row.containsTopic, row.row.scores,
                row.meta, Age(row.meta), IsFemale(row.meta), month)
  }

  /** The derived columns row by row; the first row whose Date does not give a month ends the run. */
  function DeriveRows(rows: seq<JoinedRow>): (r: Result<seq<EnrichedRow>, Failure>)
    ensures r.Ok? ==> |r.value| == |rows| && forall k :: 0 <= k < |rows| ==>
      && Month(rows[k].row.id, rows[k].meta) == Ok(r.value[k].month)
      && r.value[k] == Enrich1(rows[k], r.value[k].month)
  {
    if rows == [] then Ok([])
    else
      assert forall k :: 1 <= k < |rows| ==> rows[k] == rows[1..][k - 1];
      match Month(rows[0].row.id, rows[0].meta)
      case Err(e) => Err(e)
      case Ok(m) =>
        match DeriveRows(rows[1..])
        case Err(e) => Err(e)
        case Ok(rest) => Ok([Enrich1(rows[0], m)] + rest)
  }

  /** The month a joined row's Date gives. */
  function MonthOf(jr: JoinedRow): Result<int, Failure> {
    Month(jr.row.id, jr.meta)
  }

  /** Row `k` is the first whose Date gives no month. */
  ghost predicate FirstBadMonth(rows: seq<JoinedRow>, k: int) {
    && 0 <= k < |rows| && MonthOf(rows[k]).Err?
    && forall j :: 0 <= j < k ==> MonthOf(rows[j]).Ok?
  }

  /** Deriving fails exactly when some row's Date gives no month, and then with the first such failure. */
  lemma {:induction false} DeriveRowsFails(rows: seq<JoinedRow>)
    ensures DeriveRows(rows).Err? <==> exists k :: 0 <= k < |rows| && MonthOf(rows[k]).Err?
    ensures DeriveRows(rows).Err? ==> exists k :: FirstBadMonth(rows, k) && DeriveRows(rows).error == MonthOf(rows[k]).error
  {
    if rows != [] && MonthOf(rows[0]).Ok? {
      var tail := rows[1..];
      DeriveRowsFails(tail);
      if DeriveRows(tail).Err? {
        var k :| FirstBadMonth(tail, k) && DeriveRows(tail).error == MonthOf(tail[k]).error;
        ShiftFirstBad(rows, k);
      } else {
        forall k | 0 <= k < |rows| ensures MonthOf(rows[k]).Ok? {
          if k > 0 {
            assert rows[k] == tail[k - 1];
          }
        }
      }
    } else if rows != [] {
      assert FirstBadMonth(rows, 0);
    }
  }

  lemma ShiftFirstBad(rows: seq<JoinedRow>, k: nat)
    requires rows != [] && MonthOf(rows[0]).Ok? && FirstBadMonth(rows[1..], k)
    ensures FirstBadMonth(rows, k + 1)
  {
    assert rows[k + 1] == rows[1..][k];
    forall j | 0 <= j < k + 1 ensures MonthOf(rows[j]).Ok? {
      if j > 0 {
        assert rows[j] == rows[1..][j - 1];
      }
    }
  }

  lemma DeriveRowsMember(rows: seq<JoinedRow>, out: seq<EnrichedRow>, x: EnrichedRow)
    requires DeriveRows(rows) == Ok(out) && x in out
    ensures exists jr :: jr in rows && x == Enrich1(jr, x.month) && Month(jr.row.id, jr.meta) == Ok(x.month)
  {
    var n :| 0 <= n < |out| && out[n] == x;
    assert rows[n] in rows;
  }

  /**
    Lines 120-124: each derived column reads a metadata column, and a column the metadata
    never had fails even when no row is left.
  */
  function Derive(rows: seq<JoinedRow>, columns: set<string>): (r: Result<seq<EnrichedRow>, Failure>)
    ensures "Speaker_birth" !in columns ==> r == Err(MissingColumn("Speaker_birth"))
    ensures "Speaker_birth" in columns && "Speaker_gender" !in columns ==> r == Err(MissingColumn("Speaker_gender"))
    ensures "Speaker_birth" in columns && "Speaker_gender" in columns && "Date" !in columns ==> r == Err(MissingColumn("Date"))
    ensures "Speaker_birth" in columns && "Speaker_gender" in columns && "Date" in columns ==> r == DeriveRows(rows)
  {
    if "Speaker_birth" !in columns then Err(MissingColumn("Speaker_birth"))
    else if "Speaker_gender" !in columns then Err(MissingColumn("Speaker_gender"))
    else if "Date" !in columns then Err(MissingColumn("Date"))
    else DeriveRows(rows)
  }

  // ---------------------------------------------------------------------------------------
  // The whole pass

  /**
    The steps of `prepare_full_tables` after loading, in the order the source runs them. A
    metadata column named `contains_topic` clashes with the speech column in the merge: both
    are renamed with the `_x`/`_y` suffixes, and the filter's column lookup raises KeyError.
  */
  function Enrich(speech: seq<SpeechRow>, meta: MetaTable, score: string -> Scores): (r: Result<seq<EnrichedRow>, Failure>)
    ensures r.Ok? ==> Flag(speech, score).Ok? && "ID" in meta.columns && "contains_topic" !in meta.columns
    ensures Flag(speech, score).Ok? && "ID" in meta.columns && "contains_topic" in meta.columns ==>
      r == Err(MissingColumn("contains_topic"))
  {
    match Flag(speech, score)
    case Err(e) => Err(e)
    case Ok(flagged) =>
      if "ID" !in meta.columns then Err(MissingColumn("ID"))
      else if "contains_topic" in meta.columns then Err(MissingColumn("contains_topic"))
      else
        Derive(Combine(flagged, meta.rows), meta.columns)
  }

  /** The result of `prepare_full_tables` on the loaded tables, or the failure that ends it. */
  function FullTables(tables: Result<(seq<SpeechRow>, MetaTable), Failure>, score: string -> Scores): (r: Result<seq<EnrichedRow>, Failure>)
    ensures tables.Err? ==> r == Err(tables.error)
    ensures r.Ok? ==> tables.Ok? && r == Enrich(tables.value.0, tables.value.1, score)
  {
    match tables
    case Err(e) => Err(e)
    case Ok((speech, meta)) => Enrich(speech, meta, score)
  }

  /** `prepare_full_tables(topics)`: load the tables, then enrich them. */
  method PrepareFullTables(topics: seq<string>, listing: seq<string>, fs: map<string, seq<string>>, score: string -> Scores)
    returns (r: Result<seq<EnrichedRow>, Failure>)
    requires Readable(TxtNames(listing), fs)
    ensures AllIn(Documents(TxtNames(listing), fs, topics), fs)
    ensures r == FullTables(TablesOf(Documents(TxtNames(listing), fs, topics), fs), score)
  {
    var tables := GetTables(topics, listing, fs);
    if tables.Err? {
      return Err(tables.error);
    }
    var (speech, meta) := tables.value;
    r := Enrich(speech, meta, score);
  }

  // ---------------------------------------------------------------------------------------
  // What the returned table holds

  function SpeechId(row: SpeechRow): string {
    row.id
  }

  /** The conditions under which the pass fails, in the order the source meets them. */
  lemma EnrichFailures(speech: seq<SpeechRow>, meta: MetaTable, score: string -> Scores)
    ensures (exists k :: 0 <= k < |speech| && speech[k].text.None?) ==>
      exists k :: 0 <= k < |speech| && Enrich(speech, meta, score) == Err(TextMissing(speech[k].id))
    ensures (forall k :: 0 <= k < |speech| ==> speech[k].text.Some?) && "ID" !in meta.columns ==>
      Enrich(speech, meta, score) == Err(MissingColumn("ID"))
    ensures (forall k :: 0 <= k < |speech| ==> speech[k].text.Some?) && "ID" in meta.columns && "Date" !in meta.columns ==>
      Enrich(speech, meta, score).Err? && Enrich(speech, meta, score).error.MissingColumn?
    ensures (forall k :: 0 <= k < |speech| ==> speech[k].text.Some?) && "ID" in meta.columns && "contains_topic" in meta.columns ==>
      Enrich(speech, meta, score) == Err(MissingColumn("contains_topic"))
  {
  }

  /** Facts about the rows a successful pass returns. */
  lemma EnrichRows(speech: seq<SpeechRow>, meta: MetaTable, score: string -> Scores, out: seq<EnrichedRow>)
    requires Enrich(speech, meta, score) == Ok(out)
    // only rows that match a topic, scored on their own text
    ensures forall x :: x in out ==> x.containsTopic && ContainsTopic(x.text) && x.scores == Some(score(x.text))
    // each is the first speech row with its ID
    ensures forall x :: x in out ==> exists k ::
      0 <= k < |speech| && speech[k] == SpeechRow(x.id, Some(x.text)) && FirstOfKey(speech, SpeechId, k)
    // the first metadata row with the ID, or none, and the columns derived from it
    ensures forall x :: x in out ==>
      && x.meta == MetaOf(meta.rows, x.id)
      && x.age == Age(x.meta) && x.isFemale == IsFemale(x.meta) && Month(x.id, x.meta) == Ok(x.month)
  {
    var flagged := Flag(speech, score).value;
    var kept := Combine(flagged, meta.rows);
    assert DeriveRows(kept) == Ok(out);
    forall x | x in out
      ensures x.containsTopic && ContainsTopic(x.text) && x.scores == Some(score(x.text))
      ensures exists k :: 0 <= k < |speech| && speech[k] == SpeechRow(x.id, Some(x.text)) && FirstOfKey(speech, SpeechId, k)
      ensures x.meta == MetaOf(meta.rows, x.id)
      ensures x.age == Age(x.meta) && x.isFemale == IsFemale(x.meta) && Month(x.id, x.meta) == Ok(x.month)
    {
      DeriveRowsMember(kept, out, x);
      var jr :| jr in kept && x == Enrich1(jr, x.month) && Month(jr.row.id, jr.meta) == Ok(x.month);
      CombineRow(flagged, meta.rows, jr);
      var k :| 0 <= k < |flagged| && flagged[k] == jr.row && FirstOfKey(flagged, RowId, k);
      FirstIdOfSpeech(speech, score, flagged, k);
    }
  }

  /** The first flagged row of an ID is the first speech row of that ID. */
  lemma FirstIdOfSpeech(speech: seq<SpeechRow>, score: string -> Scores, flagged: seq<FlaggedRow>, k: nat)
    requires Flag(speech, score) == Ok(flagged) && k < |flagged|
    ensures FirstOfKey(flagged, RowId, k) <==> FirstOfKey(speech, SpeechId, k)
  {
    assert forall i :: 0 <= i < |flagged| ==> RowId(flagged[i]) == SpeechId(speech[i]);
  }

  /** One returned row per ID. */
  lemma EnrichDistinct(speech: seq<SpeechRow>, meta: MetaTable, score: string -> Scores, out: seq<EnrichedRow>)
    requires Enrich(speech, meta, score) == Ok(out)
    ensures forall i, j :: 0 <= i < j < |out| ==> out[i].id != out[j].id
  {
    EnrichOk(speech, meta, score, out);
    var flagged := Flag(speech, score).value;
    var kept := Combine(flagged, meta.rows);
    CombineDistinct(flagged, meta.rows);
    forall i, j | 0 <= i < j < |out| ensures out[i].id != out[j].id {
      assert out[i].id == kept[i].row.id && out[j].id == kept[j].row.id;
    }
  }

  /** A successful pass is the derived columns of the combined flagged rows. */
  lemma EnrichOk(speech: seq<SpeechRow>, meta: MetaTable, score: string -> Scores, out: seq<EnrichedRow>)
    requires Enrich(speech, meta, score) == Ok(out)
    ensures Flag(speech, score).Ok? && "ID" in meta.columns && "contains_topic" !in meta.columns
    ensures DeriveRows(Combine(Flag(speech, score).value, meta.rows)) == Ok(out)
  {
  }

  /** The flagged row of a speech row whose text matches a topic. */
  lemma FlaggedTopic(speech: seq<SpeechRow>, score: string -> Scores, k: nat)
    requires Flag(speech, score).Ok?
    requires k < |speech| && FirstOfKey(speech, SpeechId, k)
    requires speech[k].text.Some? && ContainsTopic(speech[k].text.value)
    ensures var f := Flag(speech, score).value;
      FirstOfKey(f, RowId, k) && f[k].containsTopic && f[k].id == speech[k].id && f[k].text == speech[k].text.value
  {
    FirstIdOfSpeech(speech, score, Flag(speech, score).value, k);
  }

  /** No topical speech is lost: the first row of every ID whose text matches a topic is returned. */
  lemma EnrichComplete(speech: seq<SpeechRow>, meta: MetaTable, score: string -> Scores, out: seq<EnrichedRow>, k: nat)
    requires Enrich(speech, meta, score) == Ok(out)
    requires k < |speech| && FirstOfKey(speech, SpeechId, k)
    requires speech[k].text.Some? && ContainsTopic(speech[k].text.value)
    ensures exists x :: x in out && x.id == speech[k].id && x.text == speech[k].text.value
  {
    EnrichOk(speech, meta, score, out);
    FlaggedTopic(speech, score, k);
    DerivedComplete(Flag(speech, score).value, meta.rows, out, k);
  }

  /** The first flagged row of an ID that matches a topic is among the derived rows. */
  lemma DerivedComplete(flagged: seq<FlaggedRow>, meta: seq<MetaRow>, out: seq<EnrichedRow>, k: nat)
    requires DeriveRows(Combine(flagged, meta)) == Ok(out)
    requires k < |flagged| && FirstOfKey(flagged, RowId, k) && flagged[k].containsTopic
    ensures exists x :: x in out && x.id == flagged[k].id && x.text == flagged[k].text
  {
    CombineComplete(flagged, meta, k);
    var jr :| jr in Combine(flagged, meta) && jr.row == flagged[k];
    DerivedMember(Combine(flagged, meta), out, jr);
  }

  /** Every joined row gives a derived row with its ID and text. */
  lemma DerivedMember(kept: seq<JoinedRow>, out: seq<EnrichedRow>, jr: JoinedRow)
    requires DeriveRows(kept) == Ok(out) && jr in kept
    ensures exists x :: x in out && x.id == jr.row.id && x.text == jr.row.text
  {
    var n :| 0 <= n < |kept| && kept[n] == jr;
    DerivedRow(kept, out, n);
    assert out[n] in out;
  }

  /** The n-th derived row carries the ID and text of the n-th joined row. */
  lemma DerivedRow(kept: seq<JoinedRow>, out: seq<EnrichedRow>, n: nat)
    requires DeriveRows(kept) == Ok(out) && n < |kept|
    ensures n < |out| && out[n].id == kept[n].row.id && out[n].text == kept[n].row.text
  {
    assert out[n] == Enrich1(kept[n], out[n].month);
  }

  /** `2022 - to_numeric(...)` on a birth year written in digits. */
  lemma AgeOfYear(meta: MetaRow, year: nat)
    requires "Speaker_birth" in meta && meta["Speaker_birth"] == Decimal(year)
    ensures Age(meta) == Some(AgeYear - year)
  {
    ParseDecimal(year);
  }

  /** A birth year that is not a number gives a missing Age, not a failure. */
  lemma AgeOfText(meta: MetaRow)
    requires "Speaker_birth" in meta && meta["Speaker_birth"] != []
    requires forall i :: 0 <= i < |meta["Speaker_birth"]| ==> !IsDigit(meta["Speaker_birth"][i])
    ensures Age(meta) == None
  {
    var b := meta["Speaker_birth"];
    if b[0] == '-' || b[0] == '+' {
      if b[1..] != [] {
        assert b[1..][0] == b[1];
      }
    }
  }

  /** A birth year with a character other than a digit after its first gives a missing Age: "19a70". */
  lemma AgeOfMixed(meta: MetaRow, i: nat)
    requires "Speaker_birth" in meta && 1 <= i < |meta["Speaker_birth"]|
    requires !IsDigit(meta["Speaker_birth"][i])
    ensures Age(meta) == None
  {
    var b := meta["Speaker_birth"];
    assert b[1..][i - 1] == b[i];
  }

  /**
    Month reads the field between the first two '-' of a year-month-day Date. The month is not
    range-checked: `2022-13-01` gives 13.
  */
  lemma MonthOfDate(id: string, meta: MetaRow, year: string, month: string, day: string)
    requires '-' !in year && '-' !in day
    requires month != [] && forall i :: 0 <= i < |month| ==> IsDigit(month[i])
    requires "Date" in meta && meta["Date"] == year + "-" + month + "-" + day
    ensures Month(id, meta) == Ok(DigitsValue(month))
  {
    NoDash(month);
    DateFields(year, month, day);
    PythonIntDigits(month);
  }

  /** A year-month-day date splits at '-' into its three fields. */
  lemma DateFields(year: string, month: string, day: string)
    requires '-' !in year && '-' !in month && '-' !in day
    ensures SplitOn(year + "-" + month + "-" + day, '-') == [year, month, day]
  {
    var parts := [year, month, day];
    assert JoinWith(parts[1..], '-') == month + "-" + day by {
      assert parts[1..][1..] == [day];
    }
    assert JoinWith(parts, '-') == year + "-" + month + "-" + day;
    SplitJoin(parts, '-');
  }

  /** A date written from numbers gives back its month. */
  lemma MonthOfWrittenDate(id: string, meta: MetaRow, y: nat, m: nat, d: nat)
    requires "Date" in meta && meta["Date"] == Decimal(y) + "-" + Decimal(m) + "-" + Decimal(d)
    ensures Month(id, meta) == Ok(m)
  {
    NoDash(Decimal(y));
    NoDash(Decimal(d));
    ParseDecimal(m);
    MonthOfDate(id, meta, Decimal(y), Decimal(m), Decimal(d));
  }

  lemma NoDash(s: string)
    requires forall i :: 0 <= i < |s| ==> IsDigit(s[i])
    ensures '-' !in s
  {
  }

  /** A Date without '-' (a bare year) fails at the index into the split. */
  lemma MonthOfYearOnly(id: string, meta: MetaRow)
    requires "Date" in meta && '-' !in meta["Date"]
    ensures Month(id, meta) == Err(NoMonthField(meta["Date"]))
  {
    MonthCases(id, meta);
  }
}

=== FILE: scenario.dfy ===
/**
  A worked run of the whole program: two documents, one speech each, with the topics
  "military" and "drone". Only the first document is selected, and its speech is the one
  row of the enriched table, flagged and scored.
*/
module Scenario {
  import opened Wrappers
  import opened Text
  import opened Keywords
  import opened Selector
  import opened Tables
  import opened Topics
  import opened Pipeline

  /** A file holding one speech line `ident<TAB>text` has one matching line or none. */
  lemma OneLineFile(ident: string, text: string, keywords: seq<string>)
    requires ident != [] && NoSpace(ident)
    requires text != [] && !IsSpace(text[0]) && !IsSpace(text[|text| - 1])
    ensures MatchingLines([ident + "\t" + text], keywords) == if ContainsKeyword(text, keywords) then 1 else 0
  {
    var line := ident + "\t" + text;
    SpeechLineIsStripped(ident, text);
    assert [line][..0] == [];
    assert [] + ident + "\t" + text == line;
    ProcessTextLineSearchesText([], ident, "\t", text, keywords);
  }

  lemma SpeechLineIsStripped(ident: string, text: string)
    requires ident != [] && NoSpace(ident)
    requires text != [] && !IsSpace(text[|text| - 1])
    ensures Strip(ident + "\t" + text) == ident + "\t" + text
  {
    var line := ident + "\t" + text;
    assert [] + line + [] == line;
    assert line[0] == ident[0];
    assert line[|line| - 1] == text[|text| - 1];
    StripPadded([], line, []);
  }

  /** The first speech names "military" as a word: a selection keyword and a topic alike. */
  lemma FirstTextMatches(text: string)
    requires text == "The military uses drones today."
    ensures ContainsKeyword(text, ["military", "drone"])
    ensures ContainsTopic(text)
  {
    assert text == "The " + "military" + " uses drones today.";
    MilitaryAsWord(text, "The ", " uses drones today.");
  }

  /** "military" standing as a word is both a selection keyword and a topic. */
  lemma MilitaryAsWord(text: string, lead: string, rest: string)
    requires text == lead + "military" + rest
    requires lead == [] || !IsWordChar(lead[|lead| - 1])
    requires rest == [] || !IsWordChar(rest[0])
    ensures ContainsKeyword(text, ["military", "drone"])
    ensures ContainsTopic(text)
  {
    WordBetween(lead, "military", rest);
    assert OccursAsWord(text, "military");
    assert "military" in ["military", "drone"];
    var alt := TopicPatterns[12];
    assert alt in TopicPatterns && "" in alt.endings && alt.stem + "" == "military";
    TopicAt(text, alt, "", |lead|);
  }

  /** The second speech has no 'm' and no 'd', so neither topic can occur in it. */
  lemma SecondTextMisses(text: string)
    requires text == "The weather was nice."
    ensures !ContainsKeyword(text, ["military", "drone"])
  {
    AbsentInitial(text, "military");
    AbsentInitial(text, "drone");
  }

  /** The selection of two listed documents: each path once per matching line, in listing order. */
  lemma TwoDocuments(x: string, y: string, fs: map<string, seq<string>>, keywords: seq<string>)
    requires PathOf(x) in fs && PathOf(y) in fs
    ensures Readable([x, y], fs)
    ensures Documents([x, y], fs, keywords)
      == Repeat(PathOf(x), MatchingLines(fs[PathOf(x)], keywords)) + Repeat(PathOf(y), MatchingLines(fs[PathOf(y)], keywords))
  {
    assert Readable([x] + [y], fs);
    DocumentsAppend([x], [y], fs, keywords);
    OneDocument(x, fs, keywords);
    OneDocument(y, fs, keywords);
    assert [x] + [y] == [x, y];
  }

  lemma OneDocument(x: string, fs: map<string, seq<string>>, keywords: seq<string>)
    requires PathOf(x) in fs
    ensures Readable([x], fs)
    ensures Documents([x], fs, keywords) == Repeat(PathOf(x), MatchingLines(fs[PathOf(x)], keywords))
  {
    assert [x][..0] == [] && [x][..1] == [x];
    DocumentsStep([x], 0, fs, keywords);
    assert Documents([], fs, keywords) == [];
  }

  /** Selection: of the two documents, only the one whose line names a topic is returned, once. */
  lemma ScenarioSelection(fs: map<string, seq<string>>, textA: string, textB: string)
    requires textA == "The military uses drones today." && textB == "The weather was nice."
    requires PathOf("a.txt") in fs && fs[PathOf("a.txt")] == ["1" + "\t" + textA]
    requires PathOf("b.txt") in fs && fs[PathOf("b.txt")] == ["2" + "\t" + textB]
    ensures Readable(["a.txt", "b.txt"], fs)
    ensures Documents(["a.txt", "b.txt"], fs, ["military", "drone"]) == [PathOf("a.txt")]
  {
    FirstTextMatches(textA);
    SecondTextMisses(textB);
    OneOfTwo(fs, "a.txt", "b.txt", "1", "2", textA, textB, ["military", "drone"]);
  }

  /** Of two one-line documents, only the one whose text names a keyword is selected. */
  lemma OneOfTwo(fs: map<string, seq<string>>, x: string, y: string, ix: string, iy: string,
                 tx: string, ty: string, keywords: seq<string>)
    requires ix != [] && NoSpace(ix) && iy != [] && NoSpace(iy)
    requires tx != [] && !IsSpace(tx[0]) && !IsSpace(tx[|tx| - 1])
    requires ty != [] && !IsSpace(ty[0]) && !IsSpace(ty[|ty| - 1])
    requires ContainsKeyword(tx, keywords) && !ContainsKeyword(ty, keywords)
    requires PathOf(x) in fs && fs[PathOf(x)] == [ix + "\t" + tx]
    requires PathOf(y) in fs && fs[PathOf(y)] == [iy + "\t" + ty]
    ensures Readable([x, y], fs)
    ensures Documents([x, y], fs, keywords) == [PathOf(x)]
  {
    OneLineFile(ix, tx, keywords);
    OneLineFile(iy, ty, keywords);
    TwoDocuments(x, y, fs, keywords);
    assert Repeat(PathOf(x), 1) == [PathOf(x)];
  }

  /** The metadata row of the first speech's document, dated 2022-03-15 (kept as its three fields). */
  predicate SpeakerRow(m: MetaRow, date: Date) {
    && date == Date("2022", "03", "15")
    && m == map["ID" := "1", "Speaker_birth" := "1970", "Speaker_gender" := "F",
                "Date" := date.year + "-" + date.month + "-" + date.day]
  }

  datatype Date = Date(year: string, month: string, day: string)

  /** The columns of that metadata file. */
  const Columns: set<string> := {"ID", "Speaker_birth", "Speaker_gender", "Date"}

  lemma FlagOne(id: string, text: string, score: string -> Scores)
    ensures Flag([SpeechRow(id, Some(text))], score) == Ok([FlagRow(id, text, score)])
  {
    var rows := [SpeechRow(id, Some(text))];
    assert rows[1..] == [];
    assert Flag(rows[1..], score) == Ok([]);
    assert [FlagRow(id, text, score)] + [] == [FlagRow(id, text, score)];
  }

  lemma DedupOne<R, K>(x: R, key: R -> K)
    ensures Dedup([x], key) == [x]
  {
    assert [x][1..] == [];
    assert DedupSeen([x], key, {}) == [x] + DedupSeen([], key, {} + {key(x)});
    assert [x] + [] == [x];
  }

  lemma DeriveOne(jr: JoinedRow, month: int)
    requires Month(jr.row.id, jr.meta) == Ok(month)
    ensures DeriveRows([jr]) == Ok([Enrich1(jr, month)])
  {
    assert [jr][1..] == [];
    assert DeriveRows([jr][1..]) == Ok([]);
    assert [Enrich1(jr, month)] + [] == [Enrich1(jr, month)];
  }

  lemma ScenarioMonth(id: string, m: MetaRow, date: Date)
    requires SpeakerRow(m, date)
    ensures Month(id, m) == Ok(3)
  {
    MonthThree();
    assert date.month == "03";
    MonthOfDate(id, m, date.year, date.month, date.day);
  }

  lemma MonthThree()
    ensures "03" != [] && (forall i :: 0 <= i < |"03"| ==> IsDigit("03"[i])) && DigitsValue("03") == 3
  {
  }

  lemma ScenarioAge(m: MetaRow, date: Date)
    requires SpeakerRow(m, date)
    ensures Age(m) == Some(52)
  {
    assert Decimal(1970) == "1970";
    AgeOfYear(m, 1970);
  }

  /** A single topical speech with a single metadata row of its ID. */
  lemma EnrichOne(id: string, text: string, meta: MetaTable, m: MetaRow, score: string -> Scores, month: int)
    requires ContainsTopic(text)
    requires {"ID", "Speaker_birth", "Speaker_gender", "Date"} <= meta.columns
    requires "contains_topic" !in meta.columns
    requires meta.rows == [m] && MetaId(m) == Some(id)
    requires Month(id, m) == Ok(month)
    ensures Enrich([SpeechRow(id, Some(text))], meta, score)
      == Ok([EnrichedRow(id, text, true, Some(score(text)), m, Age(m), IsFemale(m), month)])
  {
    var f := FlaggedRow(id, text, true, Some(score(text)));
    FlagOne(id, text, score);
    assert FlagRow(id, text, score) == f;
    DedupOne(f, RowId);
    DedupOne(m, MetaId);
    assert MetaOf([m], id) == m;
    var joined := LeftJoin([f], [m]);
    assert joined == [JoinedRow(f, m)];
    assert joined[..0] == [];
    assert Combine([f], [m]) == [JoinedRow(f, m)];
    DeriveOne(JoinedRow(f, m), month);
  }

  /** Any topical text spoken by the speaker of the scenario. */
  lemma TopicalSpeaker(text: string, m: MetaRow, date: Date, score: string -> Scores)
    requires ContainsTopic(text) && SpeakerRow(m, date)
    ensures Enrich([SpeechRow("1", Some(text))], MetaTable(Columns, [m]), score)
      == Ok([EnrichedRow("1", text, true, Some(score(text)), m, Some(52), true, 3)])
  {
    SpeakerFacts(m, date);
    TopicNotAColumn();
    EnrichOne("1", text, MetaTable(Columns, [m]), m, score, 3);
  }

  /** The speaker's metadata has no column clashing with `contains_topic`. */
  lemma TopicNotAColumn()
    ensures "contains_topic" !in Columns
  {
    assert "contains_topic"[0] != "Speaker_gender"[0];
  }

  /** What the derived columns read from the speaker's row. */
  lemma SpeakerFacts(m: MetaRow, date: Date)
    requires SpeakerRow(m, date)
    ensures MetaId(m) == Some("1") && IsFemale(m) && Age(m) == Some(52) && Month("1", m) == Ok(3)
    ensures {"ID", "Speaker_birth", "Speaker_gender", "Date"} <= Columns
  {
    ScenarioMonth("1", m, date);
    ScenarioAge(m, date);
  }

  /**
    Enrichment: the speech that names a topic comes out flagged, scored on its text, joined to
    its metadata, with Age 52, is_female true and Month 3.
  */
  lemma ScenarioEnrichment(textA: string, m: MetaRow, date: Date, score: string -> Scores)
    requires textA == "The military uses drones today." && SpeakerRow(m, date)
    ensures Enrich([SpeechRow("1", Some(textA))], MetaTable(Columns, [m]), score)
      == Ok([EnrichedRow("1", textA, true, Some(score(textA)), m, Some(52), true, 3)])
  {
    FirstTextMatches(textA);
    TopicalSpeaker(textA, m, date, score);
  }

  // ---------------------------------------------------------------------------------------
  // Loading: the selected document's speech file and its metadata file.

  /** The first line of the metadata file: the column names. */
  const Header: seq<string> := ["ID", "Speaker_birth", "Speaker_gender", "Date"]

  /** The second line of the metadata file: the values of the speaker of speech 1. */
  function Fields(date: Date): seq<string> {
    ["1", "1970", "F", date.year + "-" + date.month + "-" + date.day]
  }

  lemma {:induction false} JoinWithLast(parts: seq<string>, sep: char)
    requires |parts| >= 1 && parts[|parts| - 1] != []
    ensures var s := JoinWith(parts, sep);
      s != [] && s[|s| - 1] == parts[|parts| - 1][|parts[|parts| - 1]| - 1]
    decreases |parts|
  {
    if |parts| > 1 {
      JoinWithLast(parts[1..], sep);
    }
  }

  /** A tab-joined line that starts and ends with a visible character is unchanged by `strip()`. */
  lemma TabLineIsStripped(parts: seq<string>)
    requires |parts| >= 1 && parts[0] != [] && parts[|parts| - 1] != []
    requires !IsSpace(parts[0][0]) && !IsSpace(parts[|parts| - 1][|parts[|parts| - 1]| - 1])
    ensures Strip(JoinWith(parts, '\t')) == JoinWith(parts, '\t')
  {
    var line := JoinWith(parts, '\t');
    JoinWithLast(parts, '\t');
    assert line[0] == parts[0][0];
    assert [] + line + [] == line;
    StripPadded([], line, []);
  }

  /** The values line, zipped with the column names, is the speaker's row. */
  lemma ZipSpeaker(m: MetaRow, date: Date)
    requires SpeakerRow(m, date)
    ensures Zip(Header, Fields(date)) == m
  {
    ZipFour(Header, Fields(date));
  }

  /** Four column names zipped with four values: the earlier names are written last, so they win. */
  lemma ZipFour(hs: seq<string>, vs: seq<string>)
    requires |hs| == 4 && |vs| == 4
    ensures Zip(hs, vs) == map[][hs[3] := vs[3]][hs[2] := vs[2]][hs[1] := vs[1]][hs[0] := vs[0]]
  {
    assert Zip(hs[4..], vs[4..]) == map[];
    ZipStep(hs, vs, 3);
    ZipStep(hs, vs, 2);
    ZipStep(hs, vs, 1);
    ZipStep(hs, vs, 0);
    assert hs[0..] == hs && vs[0..] == vs;
  }

  lemma ZipStep(hs: seq<string>, vs: seq<string>, i: nat)
    requires i < |hs| && i < |vs|
    ensures Zip(hs[i..], vs[i..]) == Zip(hs[i + 1..], vs[i + 1..])[hs[i] := vs[i]]
  {
    assert hs[i..][1..] == hs[i + 1..] && vs[i..][1..] == vs[i + 1..];
  }

  /** Two lines, neither blank nor padded, are kept as they are by `strip()` and the blank filter. */
  lemma TwoLines(h: string, v: string)
    requires Strip(h) == h && Strip(v) == v && h != [] && v != []
    ensures NonBlank([h, v]) == [h, v]
  {
    var lines := [h, v];
    assert lines[..|lines| - 1] == [h] && lines[|lines| - 1] == v;
    NonBlankOne(h);
  }

  /** Two tab-joined lines, neither padded, are read back as their fields. */
  lemma TwoTabLines(hs: seq<string>, vs: seq<string>)
    requires |hs| >= 1 && hs[0] != [] && hs[|hs| - 1] != []
    requires !IsSpace(hs[0][0]) && !IsSpace(hs[|hs| - 1][|hs[|hs| - 1]| - 1])
    requires |vs| >= 1 && vs[0] != [] && vs[|vs| - 1] != []
    requires !IsSpace(vs[0][0]) && !IsSpace(vs[|vs| - 1][|vs[|vs| - 1]| - 1])
    requires forall k :: 0 <= k < |hs| ==> '\t' !in hs[k]
    requires forall k :: 0 <= k < |vs| ==> '\t' !in vs[k]
    ensures TabRows(NonBlank([JoinWith(hs, '\t'), JoinWith(vs, '\t')])) == [hs, vs]
  {
    var h := JoinWith(hs, '\t');
    var v := JoinWith(vs, '\t');
    TabLineIsStripped(hs);
    TabLineIsStripped(vs);
    TwoLines(h, v);
    SplitJoin(hs, '\t');
    SplitJoin(vs, '\t');
    TabRowsTwo(h, v);
  }

  lemma TabRowsTwo(h: string, v: string)
    ensures TabRows([h, v]) == [SplitOn(h, '\t'), SplitOn(v, '\t')]
  {
  }

  /** The metadata file of the selected document becomes a table of one row under its four columns. */
  lemma MetaFile(m: MetaRow, date: Date)
    requires SpeakerRow(m, date)
    ensures MetaFrame(TabRows(NonBlank([JoinWith(Header, '\t'), JoinWith(Fields(date), '\t')])))
      == Some(MetaTable(Columns, [m]))
  {
    HeaderLine();
    FieldsLine(date);
    TwoTabLines(Header, Fields(date));
    OneRowFrame(Header, Fields(date));
    ZipSpeaker(m, date);
    HeaderColumns();
  }

  lemma OneRowFrame(hs: seq<string>, vs: seq<string>)
    ensures MetaFrame([hs, vs]) == Some(MetaTable(set c | c in hs, [Zip(hs, vs)]))
  {
    var rows := [hs, vs];
    assert rows[0] == hs && rows[1..] == [vs];
    assert ZipAll(hs, [vs]) == [Zip(hs, vs)];
    assert (set c | c in rows[0]) == (set c | c in hs);
  }

  lemma HeaderColumns()
    ensures (set c | c in Header) == Columns
  {
  }

  lemma HeaderLine()
    ensures Header[0] != [] && Header[3] != [] && !IsSpace(Header[0][0]) && !IsSpace(Header[3][|Header[3]| - 1])
    ensures forall k :: 0 <= k < |Header| ==> '\t' !in Header[k]
  {
  }

  lemma FieldsLine(date: Date)
    requires date == Date("2022", "03", "15")
    ensures var vs := Fields(date);
      && vs[0] != [] && vs[3] != [] && !IsSpace(vs[0][0]) && !IsSpace(vs[3][|vs[3]| - 1])
      && forall k :: 0 <= k < |vs| ==> '\t' !in vs[k]
  {
  }

  /** The speech file of the selected document becomes one row: its ID and its text. */
  lemma SpeechFile(ident: string, text: string)
    requires ident != [] && NoSpace(ident) && '\t' !in ident
    requires text != [] && !IsSpace(text[|text| - 1]) && '\t' !in text
    ensures TabRows(NonBlank([ident + "\t" + text])) == [[ident, text]]
  {
    var line := ident + "\t" + text;
    SpeechLineIsStripped(ident, text);
    NonBlankOne(line);
    assert [ident, text][1..] == [text];
    assert JoinWith([ident, text], '\t') == line;
    SplitJoin([ident, text], '\t');
    assert TabRows([line]) == [SplitOn(line, '\t')];
  }

  /** A document named `stem.txt`, with no dot in its stem, has its metadata in `stem-meta.tsv`. */
  lemma MetaPathOfName(stem: string)
    requires '.' !in stem
    ensures MetaPath(PathOf(stem + ".txt")) == PathOf(stem + "-meta.tsv")
  {
    var base := Folder + "/" + stem;
    assert PathOf(stem + ".txt") == base + ".txt";
    assert PathOf(stem + "-meta.tsv") == base + "-meta.tsv";
    assert '.' !in base;
    forall i | 0 <= i < |base| ensures !StartsWith(base[i..], ".txt") {
      assert base[i] in base;
    }
    MetaPathOfTxt(base);
  }

  /** Loading a single document whose speech and metadata files read as given. */
  lemma LoadSingle(p: string, fs: map<string, seq<string>>, speech: seq<seq<string>>, one: MetaTable)
    requires p in fs && MetaPath(p) in fs
    requires TabRows(NonBlank(fs[p])) == speech
    requires MetaFrame(TabRows(NonBlank(fs[MetaPath(p)]))) == Some(one)
    ensures AllIn([p], fs)
    ensures LoadDocuments([p], fs) == Ok(Loaded(speech, one))
  {
    var empty := Loaded([], MetaTable({}, []));
    assert [p][..0] == [] && [p][..1] == [p];
    LoadStep([p], 0, fs);
    assert LoadDocuments([], fs) == Ok(empty);
    LoadFirst(p, fs, speech, one);
  }

  lemma LoadFirst(p: string, fs: map<string, seq<string>>, speech: seq<seq<string>>, one: MetaTable)
    requires p in fs && MetaPath(p) in fs
    requires TabRows(NonBlank(fs[p])) == speech
    requires MetaFrame(TabRows(NonBlank(fs[MetaPath(p)]))) == Some(one)
    ensures LoadOne(Loaded([], MetaTable({}, [])), p, fs) == Ok(Loaded(speech, one))
  {
    var acc := Loaded([], MetaTable({}, []));
    LoadOneOk(acc, p, fs, one);
    assert acc.speech + speech == speech;
    ConcatEmpty(one);
  }

  /** A document whose metadata file has a header line adds its rows and its table. */
  lemma LoadOneOk(acc: Loaded, p: string, fs: map<string, seq<string>>, one: MetaTable)
    requires p in fs && MetaPath(p) in fs
    requires MetaFrame(TabRows(NonBlank(fs[MetaPath(p)]))) == Some(one)
    ensures LoadOne(acc, p, fs) == Ok(Loaded(acc.speech + TabRows(NonBlank(fs[p])), Concat(acc.meta, one)))
  {
  }

  lemma ConcatEmpty(one: MetaTable)
    ensures Concat(MetaTable({}, []), one) == one
  {
    assert {} + one.columns == one.columns;
    assert [] + one.rows == one.rows;
  }

  /** One row of an ID and a text gets the columns ID and Text. */
  lemma AssignSingle(ident: string, text: string)
    ensures Split([[ident, text]])
    ensures AssignColumns([[ident, text]]) == Ok([SpeechRow(ident, Some(text))])
  {
    var raw := [[ident, text]];
    assert MaxWidth(raw) == 2;
    var r := AssignColumns(raw);
    assert r.Ok?;
    assert |r.value| == 1 && r.value[0] == SpeechRow(ident, Some(text));
    assert r.value == [SpeechRow(ident, Some(text))];
  }

  /** A document holding one speech line, whose metadata file holds the speaker's row. */
  lemma SingleDocumentTables(fs: map<string, seq<string>>, text: string, m: MetaRow, date: Date)
    requires text != [] && !IsSpace(text[|text| - 1]) && '\t' !in text
    requires SpeakerRow(m, date)
    requires PathOf("a.txt") in fs && fs[PathOf("a.txt")] == ["1" + "\t" + text]
    requires PathOf("a-meta.tsv") in fs
    requires fs[PathOf("a-meta.tsv")] == [JoinWith(Header, '\t'), JoinWith(Fields(date), '\t')]
    ensures AllIn([PathOf("a.txt")], fs)
    ensures TablesOf([PathOf("a.txt")], fs) == Ok(([SpeechRow("1", Some(text))], MetaTable(Columns, [m])))
  {
    assert "a" + ".txt" == "a.txt" && "a" + "-meta.tsv" == "a-meta.tsv";
    MetaPathOfName("a");
    SpeechFile("1", text);
    MetaFile(m, date);
    LoadSingle(PathOf("a.txt"), fs, [["1", text]], MetaTable(Columns, [m]));
    AssignSingle("1", text);
  }

  lemma FirstTextShape(text: string)
    requires text == "The military uses drones today."
    ensures text != [] && !IsSpace(text[|text| - 1]) && '\t' !in text
  {
  }

  /**
    Loading: the selected document gives the speech row ("1", its text) and the metadata
    table with the speaker's row under the four columns.
  */
  lemma ScenarioTables(fs: map<string, seq<string>>, textA: string, m: MetaRow, date: Date)
    requires textA == "The military uses drones today." && SpeakerRow(m, date)
    requires PathOf("a.txt") in fs && fs[PathOf("a.txt")] == ["1" + "\t" + textA]
    requires PathOf("a-meta.tsv") in fs
    requires fs[PathOf("a-meta.tsv")] == [JoinWith(Header, '\t'), JoinWith(Fields(date), '\t')]
    ensures AllIn([PathOf("a.txt")], fs)
    ensures TablesOf([PathOf("a.txt")], fs) == Ok(([SpeechRow("1", Some(textA))], MetaTable(Columns, [m])))
  {
    FirstTextShape(textA);
    SingleDocumentTables(fs, textA, m, date);
  }

  /**
    The whole run: with "a.txt" and "b.txt" listed, `prepare_full_tables` with the topics
    "military" and "drone" yields one row, the first speech, flagged, scored and enriched.
  */
  lemma ScenarioRun(fs: map<string, seq<string>>, textA: string, textB: string, m: MetaRow, date: Date,
                    score: string -> Scores)
    requires textA == "The military uses drones today." && textB == "The weather was nice."
    requires SpeakerRow(m, date)
    requires PathOf("a.txt") in fs && fs[PathOf("a.txt")] == ["1" + "\t" + textA]
    requires PathOf("b.txt") in fs && fs[PathOf("b.txt")] == ["2" + "\t" + textB]
    requires PathOf("a-meta.tsv") in fs
    requires fs[PathOf("a-meta.tsv")] == [JoinWith(Header, '\t'), JoinWith(Fields(date), '\t')]
    ensures Readable(TxtNames(["a.txt", "b.txt"]), fs)
    ensures AllIn(Documents(TxtNames(["a.txt", "b.txt"]), fs, ["military", "drone"]), fs)
    ensures FullTables(TablesOf(Documents(TxtNames(["a.txt", "b.txt"]), fs, ["military", "drone"]), fs), score)
      == Ok([EnrichedRow("1", textA, true, Some(score(textA)), m, Some(52), true, 3)])
  {
    TwoTxtNames();
    ScenarioSelection(fs, textA, textB);
    ScenarioTables(fs, textA, m, date);
    ScenarioEnrichment(textA, m, date, score);
  }

  lemma TwoTxtNames()
    ensures TxtNames(["a.txt", "b.txt"]) == ["a.txt", "b.txt"]
  {
    assert EndsWith("b.txt", ".txt") && EndsWith("a.txt", ".txt");
  }
}

=== FILE: selector.dfy ===
/**
  The document selector: `process_file` flags every non-blank line of one speech file, and
  `get_documents` collects the `.txt` files of the speech folder that have flagged lines.
  Files are given as a map from path to the file's lines; the folder listing as a sequence of
  names in the order the operating system returns them.
*/
module Selector {
  import opened Text
  import opened Keywords

  /** The folder `get_documents` scans. */
  const Folder: string := "data/year_2022/txt/2022"

  /** `folder_path + "/" + file`. */
  function PathOf(name: string): (path: string)
    ensures StartsWith(path, Folder + "/") && path[|Folder| + 1..] == name
  {
    Folder + "/" + name
  }

  /** Distinct names give distinct paths. */
  lemma PathOfInjective(a: string, b: string)
    requires PathOf(a) == PathOf(b)
    ensures a == b
  {
    assert a == PathOf(a)[|Folder| + 1..];
  }

  /** The lines of a file after `strip()`, blank ones dropped, in file order. */
  function NonBlank(lines: seq<string>): (r: seq<string>)
    ensures |r| <= |lines|
    ensures forall k :: 0 <= k < |r| ==> r[k] != []
  {
    if lines == [] then []
    else
      var rest := NonBlank(lines[..|lines| - 1]);
      var line := Strip(lines[|lines| - 1]);
      if line == [] then rest else rest + [line]
  }

  /** Blank lines contribute nothing and the others one stripped line each, in order. */
  lemma {:induction false} NonBlankAppend(a: seq<string>, b: seq<string>)
    ensures NonBlank(a + b) == NonBlank(a) + NonBlank(b)
    decreases |b|
  {
    if b == [] {
      assert a + b == a;
    } else {
      var b' := b[..|b| - 1];
      assert (a + b)[..|a + b| - 1] == a + b';
      NonBlankAppend(a, b');
    }
  }

  lemma NonBlankOne(line: string)
    ensures NonBlank([line]) == if Strip(line) == [] then [] else [Strip(line)]
  {
    assert [line][..0] == [];
  }

  /** Each line paired with its `process_text_line` flag. */
  function Flags(lines: seq<string>, keywords: seq<string>): seq<(string, bool)> {
    seq(|lines|, k requires 0 <= k < |lines| => (lines[k], ProcessTextLine(lines[k], keywords)))
  }

  /** What `process_file` returns: each non-blank line, stripped, paired with its flag. */
  function FileResults(lines: seq<string>, keywords: seq<string>): (r: seq<(string, bool)>)
    ensures |r| <= |lines|
    ensures forall k :: 0 <= k < |r| ==> r[k].0 != [] && r[k].1 == ProcessTextLine(r[k].0, keywords)
  {
    Flags(NonBlank(lines), keywords)
  }

  /** Reading one more line adds its pair exactly when it is not blank. */
  lemma FileResultsStep(lines: seq<string>, i: nat, keywords: seq<string>)
    requires i < |lines|
    ensures var line := Strip(lines[i]);
      FileResults(lines[..i + 1], keywords) ==
        FileResults(lines[..i], keywords) + (if line == [] then [] else [(line, ProcessTextLine(line, keywords))])
  {
    NonBlankStep(lines, i);
    var nb := NonBlank(lines[..i]);
    var line := Strip(lines[i]);
    if line != [] {
      FlagsSnoc(nb, line, keywords);
    }
  }

  /** Reading one more line keeps the earlier non-blank lines and adds this one unless it is blank. */
  lemma NonBlankStep(lines: seq<string>, i: nat)
    requires i < |lines|
    ensures NonBlank(lines[..i + 1]) == NonBlank(lines[..i]) + if Strip(lines[i]) == [] then [] else [Strip(lines[i])]
  {
    assert lines[..i + 1][..i] == lines[..i];
  }

  lemma FlagsSnoc(lines: seq<string>, line: string, keywords: seq<string>)
    ensures Flags(lines + [line], keywords) == Flags(lines, keywords) + [(line, ProcessTextLine(line, keywords))]
  {
    assert (lines + [line])[..|lines|] == lines;
  }

  /**
    `process_file`: one (stripped line, flag) pair per non-blank line, in file order, where
    the flag is `process_text_line` of that line.
  */
  method ProcessFile(lines: seq<string>, keywords: seq<string>) returns (results: seq<(string, bool)>)
    ensures results == FileResults(lines, keywords)
    ensures |results| == |NonBlank(lines)|
    ensures forall k :: 0 <= k < |results| ==> results[k].0 == NonBlank(lines)[k]
    ensures forall k :: 0 <= k < |results| ==> results[k].1 == ProcessTextLine(results[k].0, keywords)
  {
    results := [];
    var i := 0;
    while i < |lines|
      invariant 0 <= i <= |lines|
      invariant results == FileResults(lines[..i], keywords)
    {
      var line := Strip(lines[i]);
      FileResultsStep(lines, i, keywords);
      if line != [] {
        var flag := ProcessTextLine(line, keywords);
        results := results + [(line, flag)];
      }
      i := i + 1;
    }
    assert lines[..i] == lines;
  }

  /** Number of flagged pairs. */
  function Flagged(results: seq<(string, bool)>): (n: nat)
    ensures n <= |results|
  {
    if results == [] then 0
    else Flagged(results[..|results| - 1]) + (if results[|results| - 1].1 then 1 else 0)
  }

  /** Number of non-blank lines of a file that `process_text_line` flags. */
  function MatchingLines(lines: seq<string>, keywords: seq<string>): nat {
    if lines == [] then 0
    else
      var line := Strip(lines[|lines| - 1]);
      MatchingLines(lines[..|lines| - 1], keywords) + if line != [] && ProcessTextLine(line, keywords) then 1 else 0
  }

  lemma FlaggedSnoc(results: seq<(string, bool)>, p: (string, bool))
    ensures Flagged(results + [p]) == Flagged(results) + if p.1 then 1 else 0
  {
    assert (results + [p])[..|results|] == results;
  }

  /** The count is the number of flagged pairs `process_file` returns for the file. */
  lemma {:induction false} MatchingLinesFlagged(lines: seq<string>, keywords: seq<string>)
    ensures MatchingLines(lines, keywords) == Flagged(FileResults(lines, keywords))
  {
    if lines != [] {
      var i := |lines| - 1;
      MatchingLinesFlagged(lines[..i], keywords);
      FileResultsStep(lines, i, keywords);
      assert lines[..i + 1] == lines;
      var line := Strip(lines[i]);
      if line != [] {
        FlaggedSnoc(FileResults(lines[..i], keywords), (line, ProcessTextLine(line, keywords)));
      } else {
        assert FileResults(lines, keywords) == FileResults(lines[..i], keywords) + [];
      }
    }
  }

  /** `x` repeated `n` times. */
  function Repeat<T>(x: T, n: nat): (r: seq<T>)
    ensures |r| == n && forall k :: 0 <= k < n ==> r[k] == x
  {
    if n == 0 then [] else Repeat(x, n - 1) + [x]
  }

  lemma {:induction false} RepeatCount<T>(x: T, n: nat, y: T)
    ensures multiset(Repeat(x, n))[y] == if y == x then n else 0
  {
    if n > 0 {
      RepeatCount(x, n - 1, y);
    }
  }

  /** `[x for x in os.listdir(folder_path) if x.endswith(".txt")]`. */
  function TxtNames(listing: seq<string>): (names: seq<string>)
    ensures forall k :: 0 <= k < |names| ==> EndsWith(names[k], ".txt") && names[k] in listing
    ensures forall n :: n in listing && EndsWith(n, ".txt") ==> n in names
  {
    if listing == [] then []
    else
      var rest := TxtNames(listing[1..]);
      if EndsWith(listing[0], ".txt") then [listing[0]] + rest else rest
  }

  /** The filter keeps the listing's order: filtering a concatenation filters each part. */
  lemma {:induction false} TxtNamesAppend(a: seq<string>, b: seq<string>)
    ensures TxtNames(a + b) == TxtNames(a) + TxtNames(b)
  {
    if a == [] {
      assert a + b == b;
    } else {
      assert (a + b)[0] == a[0] && (a + b)[1..] == a[1..] + b;
      TxtNamesAppend(a[1..], b);
    }
  }

  /** Every listed `.txt` file can be opened: the listing is the folder's own. */
  ghost predicate Readable(names: seq<string>, fs: map<string, seq<string>>) {
    forall n :: n in names ==> PathOf(n) in fs
  }

  /** The path of every named file, in order. */
  function Paths(names: seq<string>): seq<string> {
    seq(|names|, k requires 0 <= k < |names| => PathOf(names[k]))
  }

  /** The number of flagged lines of every named file, in order. */
  function Counts(names: seq<string>, fs: map<string, seq<string>>, keywords: seq<string>): seq<nat>
    requires Readable(names, fs)
  {
    seq(|names|, k requires 0 <= k < |names| => MatchingLines(fs[PathOf(names[k])], keywords))
  }

  /** Every path repeated as often as its count says, in order. */
  function Expand(paths: seq<string>, counts: seq<nat>): seq<string>
    requires |paths| == |counts|
  {
    if paths == [] then []
    else Expand(paths[..|paths| - 1], counts[..|counts| - 1]) + Repeat(paths[|paths| - 1], counts[|counts| - 1])
  }

  /** The paths `get_documents` appends, file by file: each path once per flagged line. */
  function Documents(names: seq<string>, fs: map<string, seq<string>>, keywords: seq<string>): (docs: seq<string>)
    requires Readable(names, fs)
    ensures forall d :: d in docs ==> d in Paths(names)
  {
    ExpandMembers(Paths(names), Counts(names, fs, keywords));
    Expand(Paths(names), Counts(names, fs, keywords))
  }

  lemma ReadablePrefix(names: seq<string>, i: nat, fs: map<string, seq<string>>)
    requires i <= |names| && Readable(names, fs)
    ensures Readable(names[..i], fs)
  {
    assert forall n :: n in names[..i] ==> n in names;
  }

  lemma DocumentsStep(names: seq<string>, i: nat, fs: map<string, seq<string>>, keywords: seq<string>)
    requires i < |names| && Readable(names, fs)
    ensures Readable(names[..i], fs) && Readable(names[..i + 1], fs)
    ensures Documents(names[..i + 1], fs, keywords) ==
      Documents(names[..i], fs, keywords) + Repeat(PathOf(names[i]), MatchingLines(fs[PathOf(names[i])], keywords))
  {
    ReadablePrefix(names, i, fs);
    ReadablePrefix(names, i + 1, fs);
    var ps := Paths(names[..i + 1]);
    var cs := Counts(names[..i + 1], fs, keywords);
    assert ps[..i] == Paths(names[..i]);
    assert cs[..i] == Counts(names[..i], fs, keywords);
  }

  lemma FlaggedStep(results: seq<(string, bool)>, j: nat)
    requires j < |results|
    ensures Flagged(results[..j + 1]) == Flagged(results[..j]) + if results[j].1 then 1 else 0
  {
    assert results[..j + 1][..j] == results[..j];
  }

  /**
    `get_documents(topics)`, with the folder listing and the files' contents given: the
    path of every `.txt` file, appended once for each of its flagged lines.
  */
  method GetDocuments(topics: seq<string>, listing: seq<string>, fs: map<string, seq<string>>)
    returns (docs: seq<string>)
    requires Readable(TxtNames(listing), fs)
    ensures docs == Documents(TxtNames(listing), fs, topics)
  {
    var allFiles := TxtNames(listing);
    docs := [];
    var i := 0;
    while i < |allFiles|
      invariant 0 <= i <= |allFiles|
      invariant docs == Documents(allFiles[..i], fs, topics)
    {
      var file := allFiles[i];
      var path := PathOf(file);
      var results := ProcessFile(fs[path], topics);
      assert results == FileResults(fs[path], topics);
      docs := AppendFlagged(docs, path, results);
      MatchingLinesFlagged(fs[path], topics);
      DocumentsStep(allFiles, i, fs, topics);
      i := i + 1;
    }
    assert allFiles[..i] == allFiles;
  }

  /** The inner loop of `get_documents`: the path once more for every flagged line of the file. */
  method AppendFlagged(docs: seq<string>, path: string, results: seq<(string, bool)>) returns (r: seq<string>)
    ensures r == docs + Repeat(path, Flagged(results))
  {
    r := docs;
    var j := 0;
    while j < |results|
      invariant 0 <= j <= |results|
      invariant r == docs + Repeat(path, Flagged(results[..j]))
    {
      FlaggedStep(results, j);
      if results[j].1 {
        r := r + [path];
      }
      j := j + 1;
    }
    assert results[..j] == results;
  }

  /** Expanding a concatenation expands each part. */
  lemma {:induction false} ExpandAppend(p1: seq<string>, c1: seq<nat>, p2: seq<string>, c2: seq<nat>)
    requires |p1| == |c1| && |p2| == |c2|
    ensures Expand(p1 + p2, c1 + c2) == Expand(p1, c1) + Expand(p2, c2)
    decreases |p2|
  {
    if p2 == [] {
      assert p1 + p2 == p1 && c1 + c2 == c1;
    } else {
      var n := |p2| - 1;
      var ps, cs := p1 + p2, c1 + c2;
      var last := Repeat(p2[n], c2[n]);
      calc {
        Expand(ps, cs);
        == { assert ps[..|ps| - 1] == p1 + p2[..n] && ps[|ps| - 1] == p2[n];
             assert cs[..|cs| - 1] == c1 + c2[..n] && cs[|cs| - 1] == c2[n]; }
        Expand(p1 + p2[..n], c1 + c2[..n]) + last;
        == { ExpandAppend(p1, c1, p2[..n], c2[..n]); }
        (Expand(p1, c1) + Expand(p2[..n], c2[..n])) + last;
        Expand(p1, c1) + (Expand(p2[..n], c2[..n]) + last);
        Expand(p1, c1) + Expand(p2, c2);
      }
    }
  }

  /** Only the given paths appear. */
  lemma {:induction false} ExpandMembers(paths: seq<string>, counts: seq<nat>)
    requires |paths| == |counts|
    ensures forall d :: d in Expand(paths, counts) ==> d in paths
  {
    if paths != [] {
      var n := |paths| - 1;
      ExpandMembers(paths[..n], counts[..n]);
      assert forall d :: d in paths[..n] ==> d in paths;
      assert forall d :: d in Repeat(paths[n], counts[n]) ==> d == paths[n];
    }
  }

  /** The last path's copies come after all the others. */
  lemma ExpandLast(paths: seq<string>, counts: seq<nat>, x: string)
    requires |paths| == |counts| && paths != []
    ensures var n := |paths| - 1;
      multiset(Expand(paths, counts))[x] ==
        multiset(Expand(paths[..n], counts[..n]))[x] + (if paths[n] == x then counts[n] else 0)
  {
    var n := |paths| - 1;
    RepeatCount(paths[n], counts[n], x);
  }

  /** The sum of the counts given to `x`. */
  function CountOf(paths: seq<string>, counts: seq<nat>, x: string): nat
    requires |paths| == |counts|
  {
    if paths == [] then 0
    else
      var n := |paths| - 1;
      CountOf(paths[..n], counts[..n], x) + if paths[n] == x then counts[n] else 0
  }

  /** A path appears as often as the counts given to it add up to. */
  lemma {:induction false} ExpandCountOf(paths: seq<string>, counts: seq<nat>, x: string)
    requires |paths| == |counts|
    ensures multiset(Expand(paths, counts))[x] == CountOf(paths, counts, x)
  {
    if paths != [] {
      var n := |paths| - 1;
      ExpandLast(paths, counts, x);
      ExpandCountOf(paths[..n], counts[..n], x);
    }
  }

  /** A path not given never appears. */
  lemma {:induction false} ExpandAbsent(paths: seq<string>, counts: seq<nat>, x: string)
    requires |paths| == |counts| && x !in paths
    ensures multiset(Expand(paths, counts))[x] == 0
  {
    ExpandCountOf(paths, counts, x);
    CountOfAbsent(paths, counts, x);
  }

  lemma {:induction false} CountOfAbsent(paths: seq<string>, counts: seq<nat>, x: string)
    requires |paths| == |counts|
    requires forall j :: 0 <= j < |paths| ==> paths[j] != x
    ensures CountOf(paths, counts, x) == 0
  {
    if paths != [] {
      var n := |paths| - 1;
      CountOfAbsent(paths[..n], counts[..n], x);
    }
  }

  lemma {:induction false} CountOfOnce(paths: seq<string>, counts: seq<nat>, k: nat)
    requires |paths| == |counts| && k < |paths|
    requires forall j :: 0 <= j < |paths| && j != k ==> paths[j] != paths[k]
    ensures CountOf(paths, counts, paths[k]) == counts[k]
  {
    var n := |paths| - 1;
    if k == n {
      CountOfAbsent(paths[..n], counts[..n], paths[k]);
    } else {
      CountOfOnce(paths[..n], counts[..n], k);
    }
  }

  /** A path given once appears exactly its count of times. */
  lemma ExpandCount(paths: seq<string>, counts: seq<nat>, k: nat)
    requires |paths| == |counts| && k < |paths|
    requires forall j :: 0 <= j < |paths| && j != k ==> paths[j] != paths[k]
    ensures multiset(Expand(paths, counts))[paths[k]] == counts[k]
  {
    ExpandCountOf(paths, counts, paths[k]);
    CountOfOnce(paths, counts, k);
  }

  lemma ReadableParts(a: seq<string>, b: seq<string>, fs: map<string, seq<string>>)
    requires Readable(a + b, fs)
    ensures Readable(a, fs) && Readable(b, fs)
  {
    assert forall n :: n in a ==> n in a + b;
    assert forall n :: n in b ==> n in a + b;
  }

  /** Concatenating name lists concatenates their paths. */
  lemma PathsAppend(a: seq<string>, b: seq<string>)
    ensures Paths(a + b) == Paths(a) + Paths(b)
  {
    var l, r := Paths(a + b), Paths(a) + Paths(b);
    forall k | 0 <= k < |l| ensures l[k] == r[k] {
      if k < |a| {
        assert (a + b)[k] == a[k];
      } else {
        assert (a + b)[k] == b[k - |a|];
      }
    }
  }

  /** Concatenating name lists concatenates their counts. */
  lemma CountsAppend(a: seq<string>, b: seq<string>, fs: map<string, seq<string>>, keywords: seq<string>)
    requires Readable(a + b, fs) && Readable(a, fs) && Readable(b, fs)
    ensures Counts(a + b, fs, keywords) == Counts(a, fs, keywords) + Counts(b, fs, keywords)
  {
    var ca, cb := Counts(a, fs, keywords), Counts(b, fs, keywords);
    var l, r := Counts(a + b, fs, keywords), ca + cb;
    forall k | 0 <= k < |l| ensures l[k] == r[k] {
      if k < |a| {
        assert (a + b)[k] == a[k] && r[k] == ca[k];
      } else {
        assert (a + b)[k] == b[k - |a|] && r[k] == cb[k - |a|];
      }
    }
  }

  /** The paths follow the listing: the documents of a listing are those of its parts, in order. */
  lemma DocumentsAppend(a: seq<string>, b: seq<string>, fs: map<string, seq<string>>, keywords: seq<string>)
    requires Readable(a + b, fs)
    ensures Readable(a, fs) && Readable(b, fs)
    ensures Documents(a + b, fs, keywords) == Documents(a, fs, keywords) + Documents(b, fs, keywords)
  {
    ReadableParts(a, b, fs);
    PathsAppend(a, b);
    CountsAppend(a, b, fs, keywords);
    ExpandAppend(Paths(a), Counts(a, fs, keywords), Paths(b), Counts(b, fs, keywords));
  }

  /** The selection follows the listing: the documents of a listing are those of its parts, in order. */
  lemma SelectionAppend(a: seq<string>, b: seq<string>, fs: map<string, seq<string>>, keywords: seq<string>)
    requires Readable(TxtNames(a + b), fs)
    ensures Readable(TxtNames(a), fs) && Readable(TxtNames(b), fs)
    ensures Documents(TxtNames(a + b), fs, keywords) == Documents(TxtNames(a), fs, keywords) + Documents(TxtNames(b), fs, keywords)
  {
    TxtNamesAppend(a, b);
    DocumentsAppend(TxtNames(a), TxtNames(b), fs, keywords);
  }

  /** Every selected path is a `.txt` file of the folder. */
  lemma DocumentsArePaths(names: seq<string>, fs: map<string, seq<string>>, keywords: seq<string>)
    requires Readable(names, fs)
    requires forall n :: n in names ==> EndsWith(n, ".txt")
    ensures forall d :: d in Documents(names, fs, keywords) ==>
      StartsWith(d, Folder + "/") && EndsWith(d, ".txt") && d[|Folder| + 1..] in names
  {
    var paths := Paths(names);
    ExpandMembers(paths, Counts(names, fs, keywords));
    forall d | d in paths ensures StartsWith(d, Folder + "/") && EndsWith(d, ".txt") && d[|Folder| + 1..] in names {
      var k :| 0 <= k < |paths| && paths[k] == d;
      assert names[k] in names;
      PathOfTxt(names[k]);
    }
  }

  /** A `.txt` name gives a `.txt` path. */
  lemma PathOfTxt(n: string)
    requires EndsWith(n, ".txt")
    ensures EndsWith(PathOf(n), ".txt")
  {
    assert PathOf(n)[|PathOf(n)| - 4..] == n[|n| - 4..];
  }

  /** Distinct names give distinct paths. */
  lemma PathsDistinct(names: seq<string>)
    requires Distinct(names)
    ensures Distinct(Paths(names))
  {
    forall i, j | 0 <= i < j < |names| ensures PathOf(names[i]) != PathOf(names[j]) {
      if PathOf(names[i]) == PathOf(names[j]) {
        PathOfInjective(names[i], names[j]);
      }
    }
  }

  /**
    A file of a listing without repeated names appears in the result exactly as many times
    as it has flagged lines.
  */
  lemma DocumentsCount(names: seq<string>, fs: map<string, seq<string>>, keywords: seq<string>, name: string)
    requires Readable(names, fs)
    requires Distinct(names)
    ensures multiset(Documents(names, fs, keywords))[PathOf(name)] ==
      if name in names then MatchingLines(fs[PathOf(name)], keywords) else 0
  {
    var paths := Paths(names);
    PathsDistinct(names);
    if name in names {
      var k :| 0 <= k < |names| && names[k] == name;
      assert forall j :: 0 <= j < |paths| && j != k ==> paths[j] != paths[k];
      ExpandCount(paths, Counts(names, fs, keywords), k);
    } else {
      assert PathOf(name) !in paths by {
        forall i | 0 <= i < |paths| ensures paths[i] != PathOf(name) {
          assert paths[i] == PathOf(names[i]) && names[i] != name;
          if paths[i] == PathOf(name) {
            PathOfInjective(names[i], name);
          }
        }
      }
      ExpandAbsent(paths, Counts(names, fs, keywords), PathOf(name));
    }
  }

  /**
    Selection in terms of the listing: a file is among the documents exactly when it is a
    listed `.txt` file with at least one flagged line.
  */
  lemma Selected(topics: seq<string>, listing: seq<string>, fs: map<string, seq<string>>, name: string)
    requires Readable(TxtNames(listing), fs)
    requires Distinct(listing)
    ensures PathOf(name) in Documents(TxtNames(listing), fs, topics) <==>
      name in listing && EndsWith(name, ".txt") && MatchingLines(fs[PathOf(name)], topics) > 0
  {
    var names := TxtNames(listing);
    TxtNamesDistinct(listing);
    DocumentsCount(names, fs, topics, name);
  }

  /** No name is listed twice (as `os.listdir` guarantees). */
  predicate Distinct<T(==)>(s: seq<T>) {
    forall i, j :: 0 <= i < j < |s| ==> s[i] != s[j]
  }

  lemma {:induction false} TxtNamesDistinct(listing: seq<string>)
    requires Distinct(listing)
    ensures Distinct(TxtNames(listing))
  {
    if listing != [] {
      var tail := listing[1..];
      TxtNamesDistinct(tail);
      var rest := TxtNames(tail);
      assert listing[0] !in tail by {
        forall k | 0 <= k < |tail| ensures tail[k] != listing[0] {
          assert tail[k] == listing[k + 1];
        }
      }
      assert listing[0] !in rest;
      var names := TxtNames(listing);
      if EndsWith(listing[0], ".txt") {
        assert names == [listing[0]] + rest;
        forall i, j | 0 <= i < j < |names| ensures names[i] != names[j] {
          assert names[j] == rest[j - 1];
          if i > 0 {
            assert names[i] == rest[i - 1];
          } else {
            assert names[i] == listing[0];
            assert rest[j - 1] in rest;
          }
        }
      } else {
        assert names == rest;
      }
    }
  }
}

=== FILE: tables.dfy ===
/**
  The table loader (`get_tables`): every selected speech file becomes tab-split rows, and its
  companion `-meta.tsv` file becomes metadata rows whose column names come from its first
  line. The topics are passed in explicitly (see README).
*/
module Tables {
  import opened Wrappers
  import opened Text
  import opened Selector

  /** A speech row after `df_speeches.columns = ['ID', 'Text']`; a line without a tab has no Text. */
  datatype SpeechRow = SpeechRow(id: string, text: Option<string>)

  /** One metadata row: column name to value; a column the row has no value for is absent. */
  type MetaRow = map<string, string>

  /** The metadata table: every column seen in any file, and the rows in file order. */
  datatype MetaTable = MetaTable(columns: set<string>, rows: seq<MetaRow>)

  /** The exceptions that end the run. */
  datatype Failure =
    | FileNotFound(path: string)       // `open` of a missing `-meta.tsv` file
    | NoHeaderLine(path: string)       // `set_index(0)` on an empty metadata file (KeyError)
    | ColumnCount(width: nat)          // `columns = ['ID', 'Text']` on a table that is not 2 wide
    | TextMissing(id: string)          // `pattern.search` on a missing Text (TypeError)
    | MissingColumn(name: string)      // a column the metadata never had (KeyError)
    | DateMissing(id: string)          // `.split` on a missing Date (AttributeError)
    | NoMonthField(date: string)       // `split('-')[1]` on a Date without '-' (IndexError)
    | MonthNotInteger(field: string)   // `int(...)` of a non-integer month field (ValueError)

  /** Each line split at every tab. */
  function TabRows(lines: seq<string>): (rows: seq<seq<string>>)
    ensures |rows| == |lines|
    ensures forall k :: 0 <= k < |lines| ==> rows[k] == SplitOn(lines[k], '\t')
  {
    if lines == [] then []
    else TabRows(lines[..|lines| - 1]) + [SplitOn(lines[|lines| - 1], '\t')]
  }

  lemma TabRowsStep(lines: seq<string>, i: nat)
    requires i < |lines|
    ensures var line := Strip(lines[i]);
      TabRows(NonBlank(lines[..i + 1])) ==
        TabRows(NonBlank(lines[..i])) + (if line == [] then [] else [SplitOn(line, '\t')])
  {
    NonBlankStep(lines, i);
    var nb := NonBlank(lines[..i]);
    var line := Strip(lines[i]);
    if line != [] {
      assert (nb + [line])[..|nb|] == nb;
    }
  }

  /**
    The reading loop of `get_tables`, used for speech and metadata files alike: every
    non-blank line, stripped, split at every tab, in file order.
  */
  method ReadRows(lines: seq<string>) returns (rows: seq<seq<string>>)
    ensures rows == TabRows(NonBlank(lines))
    ensures |rows| == |NonBlank(lines)|
    ensures forall k :: 0 <= k < |rows| ==> rows[k] == SplitOn(NonBlank(lines)[k], '\t')
  {
    rows := [];
    var i := 0;
    while i < |lines|
      invariant 0 <= i <= |lines|
      invariant rows == TabRows(NonBlank(lines[..i]))
    {
      var line := Strip(lines[i]);
      TabRowsStep(lines, i);
      if line != [] {
        rows := rows + [SplitOn(line, '\t')];
      }
      i := i + 1;
    }
    assert lines[..i] == lines;
  }

  /** `document.replace('.txt', '-meta.tsv')`: every ".txt" in the path is replaced. */
  function MetaPath(document: string): (metaName: string)
    ensures |metaName| >= |document|
  {
    ReplaceAll(document, ".txt", "-meta.tsv")
  }

  /**
    Every ".txt" is replaced, not only the extension: a folder or stem that itself holds ".txt"
    gets "-meta.tsv" there too.
  */
  lemma MetaPathOfTwoTxt(a: string, b: string)
    requires forall i :: 0 <= i < |a| ==> !StartsWith((a + ".txt")[i..], ".txt")
    requires forall i :: 0 <= i < |b| ==> !StartsWith((b + ".txt")[i..], ".txt")
    ensures MetaPath(a + ".txt" + b + ".txt") == a + "-meta.tsv" + b + "-meta.tsv"
  {
    ReplaceAllFirst(a, ".txt", b + ".txt", "-meta.tsv");
    assert a + ".txt" + (b + ".txt") == a + ".txt" + b + ".txt";
    ReplaceAllAtEnd(b, ".txt", "-meta.tsv");
  }

  /** A path without ".txt" is its own metadata path: `replace` leaves it unchanged. */
  lemma MetaPathOfOther(document: string)
    requires Free(document, ".txt")
    ensures MetaPath(document) == document
  {
    ReplaceAllFree(document, ".txt", "-meta.tsv");
  }

  /** For a path whose only ".txt" is its extension, the metadata file is its sibling `-meta.tsv`. */
  lemma MetaPathOfTxt(stem: string)
    requires Free(stem, ".txt")
    ensures MetaPath(stem + ".txt") == stem + "-meta.tsv"
  {
    forall i | 0 <= i < |stem| ensures !StartsWith((stem + ".txt")[i..], ".txt") {
      NotStartingHere(stem, i);
    }
    ReplaceAllAtEnd(stem, ".txt", "-meta.tsv");
  }

  lemma NotStartingHere(stem: string, i: nat)
    requires Free(stem, ".txt") && i < |stem|
    ensures !StartsWith((stem + ".txt")[i..], ".txt")
  {
    var s := stem + ".txt";
    if i + 4 <= |stem| {
      assert !StartsWith(stem[i..], ".txt");
      assert s[i..][..4] == stem[i..][..4];
    } else if s[i] == '.' {
      // The dot is inside `stem`, so the next character is either in `stem` or the '.' of ".txt".
      var k := |stem| - i;
      assert 1 <= k <= 3;
      assert s[i + k] == '.';
      assert s[i..][k] == '.';
    }
  }

  /** Column names paired with the values of one later line; a repeated name keeps its first value. */
  function Zip(header: seq<string>, values: seq<string>): (row: MetaRow)
    ensures forall c :: c in row ==> c in header
  {
    if header == [] || values == [] then map[]
    else Zip(header[1..], values[1..])[header[0] := values[0]]
  }

  /** The value a row has under a column is the one at that column's (first) position. */
  lemma {:induction false} ZipLookup(header: seq<string>, values: seq<string>, j: nat)
    requires j < |header| && j < |values|
    requires forall i :: 0 <= i < j ==> header[i] != header[j]
    ensures header[j] in Zip(header, values) && Zip(header, values)[header[j]] == values[j]
  {
    if j > 0 {
      ZipLookup(header[1..], values[1..], j - 1);
    }
  }

  /** A column the row has no value for (its line was shorter) is absent. */
  lemma {:induction false} ZipMissing(header: seq<string>, values: seq<string>, c: string)
    requires forall i :: 0 <= i < |header| && i < |values| ==> header[i] != c
    ensures c !in Zip(header, values)
  {
    if header != [] && values != [] {
      ZipMissing(header[1..], values[1..], c);
    }
  }

  /** Later lines under the column names. */
  function ZipAll(header: seq<string>, body: seq<seq<string>>): (rows: seq<MetaRow>)
    ensures |rows| == |body|
    ensures forall k :: 0 <= k < |body| ==> rows[k] == Zip(header, body[k])
  {
    if body == [] then [] else [Zip(header, body[0])] + ZipAll(header, body[1..])
  }

  /**
    `pd.DataFrame(meta_result).T.set_index(0).T`: the first line names the columns and every
    later line is one row under them; with no line at all there is no column 0 to index by.
  */
  function MetaFrame(rows: seq<seq<string>>): (t: Option<MetaTable>)
    ensures t.None? <==> rows == []
    ensures t.Some? ==> t.value.columns == (set c | c in rows[0])
    ensures t.Some? ==> |t.value.rows| == |rows| - 1
    ensures t.Some? ==> forall k :: 1 <= k < |rows| ==> t.value.rows[k - 1] == Zip(rows[0], rows[k])
  {
    if rows == [] then None
    else Some(MetaTable((set c | c in rows[0]), ZipAll(rows[0], rows[1..])))
  }

  /** `pd.concat` of two metadata tables. */
  function Concat(a: MetaTable, b: MetaTable): (t: MetaTable)
    ensures t.columns == a.columns + b.columns
    ensures |t.rows| == |a.rows| + |b.rows| && t.rows[..|a.rows|] == a.rows && t.rows[|a.rows|..] == b.rows
  {
    MetaTable(a.columns + b.columns, a.rows + b.rows)
  }

  /** Raw speech rows and the metadata table, as accumulated over the documents. */
  datatype Loaded = Loaded(speech: seq<seq<string>>, meta: MetaTable)

  ghost predicate AllIn(docs: seq<string>, fs: map<string, seq<string>>) {
    forall d :: d in docs ==> d in fs
  }

  /** One pass of the loop of `get_tables`: the speech file's rows, then its metadata file. */
  function LoadOne(acc: Loaded, document: string, fs: map<string, seq<string>>): (r: Result<Loaded, Failure>)
    requires document in fs
    ensures MetaPath(document) !in fs ==> r == Err(FileNotFound(MetaPath(document)))
    ensures r.Ok? ==> r.value.speech == acc.speech + TabRows(NonBlank(fs[document]))
  {
    var speech := acc.speech + TabRows(NonBlank(fs[document]));
    var metaName := MetaPath(document);
    if metaName !in fs then Err(FileNotFound(metaName))
    else
      match MetaFrame(TabRows(NonBlank(fs[metaName])))
      case None => Err(NoHeaderLine(metaName))
      case Some(one) => Ok(Loaded(speech, Concat(acc.meta, one)))
  }

  /**
    One document fails exactly when its metadata file is missing or has no non-blank line;
    otherwise every line after the header adds one metadata row.
  */
  lemma LoadOneFails(acc: Loaded, document: string, fs: map<string, seq<string>>)
    requires document in fs
    ensures LoadOne(acc, document, fs).Err? <==> MetaPath(document) !in fs || NonBlank(fs[MetaPath(document)]) == []
    ensures LoadOne(acc, document, fs).Ok? ==>
      |LoadOne(acc, document, fs).value.meta.rows| == |acc.meta.rows| + |NonBlank(fs[MetaPath(document)])| - 1
  {
  }

  /**
    What one document adds: its metadata file, read like the speech file, is turned into a
    table under its own header line and appended after the metadata read so far.
  */
  lemma LoadOneMeta(acc: Loaded, document: string, fs: map<string, seq<string>>)
    requires document in fs
    ensures MetaPath(document) in fs && NonBlank(fs[MetaPath(document)]) == [] ==>
      LoadOne(acc, document, fs) == Err(NoHeaderLine(MetaPath(document)))
    ensures LoadOne(acc, document, fs).Ok? ==>
      && MetaPath(document) in fs
      && MetaFrame(TabRows(NonBlank(fs[MetaPath(document)]))).Some?
      && LoadOne(acc, document, fs).value.meta == Concat(acc.meta, MetaFrame(TabRows(NonBlank(fs[MetaPath(document)]))).value)
  {
  }

  /** The loop of `get_tables` over the documents in order; the first failure ends it. */
  function LoadDocuments(docs: seq<string>, fs: map<string, seq<string>>): (r: Result<Loaded, Failure>)
    requires AllIn(docs, fs)
    ensures r.Ok? ==> Split(r.value.speech)
  {
    if docs == [] then Ok(Loaded([], MetaTable({}, [])))
    else
      assert AllIn(docs[..|docs| - 1], fs) by {
        forall d | d in docs[..|docs| - 1] ensures d in docs { }
      }
      match LoadDocuments(docs[..|docs| - 1], fs)
      case Err(e) => Err(e)
      case Ok(acc) => LoadOne(acc, docs[|docs| - 1], fs)
  }

  lemma LoadStep(docs: seq<string>, i: nat, fs: map<string, seq<string>>)
    requires i < |docs| && AllIn(docs, fs)
    ensures AllIn(docs[..i], fs) && AllIn(docs[..i + 1], fs)
    ensures var before := LoadDocuments(docs[..i], fs);
      LoadDocuments(docs[..i + 1], fs) == if before.Err? then before else LoadOne(before.value, docs[i], fs)
  {
    assert docs[..i + 1][..i] == docs[..i];
    assert forall d :: d in docs[..i + 1] ==> d in docs;
  }

  /** Once a document has failed, the whole loop fails with that exception. */
  lemma {:induction false} LoadFailureSticks(docs: seq<string>, i: nat, fs: map<string, seq<string>>, e: Failure)
    requires i <= |docs| && AllIn(docs, fs)
    requires AllIn(docs[..i], fs) && LoadDocuments(docs[..i], fs) == Err(e)
    ensures LoadDocuments(docs, fs) == Err(e)
    decreases |docs| - i
  {
    if i == |docs| {
      assert docs[..i] == docs;
    } else {
      LoadStep(docs, i, fs);
      LoadFailureSticks(docs, i + 1, fs, e);
    }
  }

  /** Every row came from `split`, so it has at least one field. */
  predicate Split(rows: seq<seq<string>>) {
    forall k :: 0 <= k < |rows| ==> |rows[k]| >= 1
  }

  /** Number of columns pandas gives a table built from these rows: the longest row's length. */
  function MaxWidth(rows: seq<seq<string>>): (w: nat)
    ensures forall k :: 0 <= k < |rows| ==> |rows[k]| <= w
    ensures rows != [] ==> exists k :: 0 <= k < |rows| && |rows[k]| == w
    ensures rows == [] ==> w == 0
  {
    if rows == [] then 0
    else
      var w := MaxWidth(rows[1..]);
      assert forall k :: 1 <= k < |rows| ==> rows[k] == rows[1..][k - 1];
      if |rows[0]| >= w then |rows[0]| else w
  }

  /**
    `df_speeches.columns = ['ID', 'Text']`: succeeds only on a table exactly two columns wide;
    the first field is the ID and the second, when the line had a tab, the Text.
  */
  function AssignColumns(raw: seq<seq<string>>): (r: Result<seq<SpeechRow>, Failure>)
    requires Split(raw)
    ensures r.Ok? <==> MaxWidth(raw) == 2
    ensures r.Err? ==> r.error == ColumnCount(MaxWidth(raw))
    ensures r.Ok? ==> |r.value| == |raw| && forall k :: 0 <= k < |raw| ==>
      && r.value[k].id == raw[k][0]
      && r.value[k].text == (if |raw[k]| == 2 then Some(raw[k][1]) else None)
  {
    if MaxWidth(raw) != 2 then Err(ColumnCount(MaxWidth(raw)))
    else
      Ok(seq(|raw|, k requires 0 <= k < |raw| =>
        SpeechRow(raw[k][0], if |raw[k]| == 2 then Some(raw[k][1]) else None)))
  }

  /** A line with two or more tabs gives a row three fields wide, and the assignment fails. */
  lemma ExtraTabFails(raw: seq<seq<string>>, k: nat, line: string)
    requires Split(raw)
    requires k < |raw| && raw[k] == SplitOn(line, '\t') && Count(line, '\t') >= 2
    ensures AssignColumns(raw).Err? && MaxWidth(raw) >= 3
  {
  }

  /** On success the speech table is the loaded rows under the columns ID and Text. */
  lemma TablesOfRows(docs: seq<string>, fs: map<string, seq<string>>)
    requires AllIn(docs, fs)
    ensures TablesOf(docs, fs).Ok? ==>
      TablesOf(docs, fs).value.0 == AssignColumns(LoadDocuments(docs, fs).value.speech).value
  {
  }

  /** The result of `get_tables` for the given documents. */
  function TablesOf(docs: seq<string>, fs: map<string, seq<string>>): (r: Result<(seq<SpeechRow>, MetaTable), Failure>)
    requires AllIn(docs, fs)
    ensures docs == [] ==> r == Err(ColumnCount(0))
    ensures r.Ok? <==> LoadDocuments(docs, fs).Ok? && MaxWidth(LoadDocuments(docs, fs).value.speech) == 2
    ensures r.Ok? ==> |r.value.0| == |LoadDocuments(docs, fs).value.speech| && r.value.1 == LoadDocuments(docs, fs).value.meta
  {
    match LoadDocuments(docs, fs)
    case Err(e) => Err(e)
    case Ok(loaded) =>
      match AssignColumns(loaded.speech)
      case Err(e) => Err(e)
      case Ok(speech) => Ok((speech, loaded.meta))
  }

  lemma DocumentsInFs(names: seq<string>, fs: map<string, seq<string>>, keywords: seq<string>)
    requires Readable(names, fs)
    ensures AllIn(Documents(names, fs, keywords), fs)
  {
    var paths := Paths(names);
    ExpandMembers(paths, Counts(names, fs, keywords));
    forall d | d in paths ensures d in fs {
      var k :| 0 <= k < |paths| && paths[k] == d;
      assert names[k] in names;
    }
  }

  /**
    `get_tables(topics)`: select the documents, then read each one's speech rows and its
    metadata file in turn, and finally name the speech columns ID and Text.
  */
  method GetTables(topics: seq<string>, listing: seq<string>, fs: map<string, seq<string>>)
    returns (r: Result<(seq<SpeechRow>, MetaTable), Failure>)
    requires Readable(TxtNames(listing), fs)
    ensures AllIn(Documents(TxtNames(listing), fs, topics), fs)
    ensures r == TablesOf(Documents(TxtNames(listing), fs, topics), fs)
  {
    var documents := GetDocuments(topics, listing, fs);
    DocumentsInFs(TxtNames(listing), fs, topics);
    var speech: seq<seq<string>> := [];
    var meta := MetaTable({}, []);
    var i := 0;
    while i < |documents|
      invariant 0 <= i <= |documents|
      invariant AllIn(documents[..i], fs)
      invariant LoadDocuments(documents[..i], fs) == Ok(Loaded(speech, meta))
    {
      LoadStep(documents, i, fs);
      var document := documents[i];
      var results := ReadRows(fs[document]);
      speech := speech + results;
      var metaName := MetaPath(document);
      if metaName !in fs {
        LoadFailureSticks(documents, i + 1, fs, FileNotFound(metaName));
        return Err(FileNotFound(metaName));
      }
      var metaResult := ReadRows(fs[metaName]);
      var one := MetaFrame(metaResult);
      if one.None? {
        LoadFailureSticks(documents, i + 1, fs, NoHeaderLine(metaName));
        return Err(NoHeaderLine(metaName));
      }
      meta := Concat(meta, one.value);
      i := i + 1;
    }
    assert documents[..i] == documents;
    var columns := AssignColumns(speech);
    if columns.Err? {
      return Err(columns.error);
    }
    r := Ok((columns.value, meta));
  }
}

=== FILE: text.dfy ===
/**
  The parts of Python's `str` that the scripts use: `isspace`, `strip`, `split(sep)`,
  `split(None, 1)`, `endswith`, `replace` and the integer parsers behind `int(...)` and
  `pd.to_numeric(...)`.
*/
module Text {
  import opened Wrappers

  /** Python's `str.isspace()` for one character (the full list of Unicode whitespace it accepts). */
  predicate IsSpace(c: char) {
    var n := c as int;
    (9 <= n <= 13) || (28 <= n <= 32) || n == 0x85 || n == 0xA0 || n == 0x1680
    || (0x2000 <= n <= 0x200A) || n == 0x2028 || n == 0x2029 || n == 0x202F
    || n == 0x205F || n == 0x3000
  }

  predicate AllSpace(s: string) {
    forall i :: 0 <= i < |s| ==> IsSpace(s[i])
  }

  predicate NoSpace(s: string) {
    forall i :: 0 <= i < |s| ==> !IsSpace(s[i])
  }

  /** Number of whitespace characters `s` starts with. */
  function LeadingSpaces(s: string): (n: nat)
    ensures n <= |s|
    ensures forall j :: 0 <= j < n ==> IsSpace(s[j])
    ensures n < |s| ==> !IsSpace(s[n])
  {
    if s != [] && IsSpace(s[0]) then 1 + LeadingSpaces(s[1..]) else 0
  }

  /** Number of whitespace characters `s` ends with. */
  function TrailingSpaces(s: string): (n: nat)
    ensures n <= |s|
    ensures forall j :: |s| - n <= j < |s| ==> IsSpace(s[j])
    ensures n < |s| ==> !IsSpace(s[|s| - 1 - n])
  {
    if s != [] && IsSpace(s[|s| - 1]) then 1 + TrailingSpaces(s[..|s| - 1]) else 0
  }

  /** `s.lstrip()`: `s` without its leading whitespace. */
  function LStrip(s: string): (r: string)
    ensures r == [] || !IsSpace(r[0])
  {
    s[LeadingSpaces(s)..]
  }

  /** `s.rstrip()`: `s` without its trailing whitespace. */
  function RStrip(s: string): (r: string)
    ensures r == [] || !IsSpace(r[|r| - 1])
  {
    s[..|s| - TrailingSpaces(s)]
  }

  /** `s.strip()`, which each line read from a file goes through before anything else. */
  function Strip(s: string): (r: string)
    ensures r == [] <==> AllSpace(s)
    ensures r == [] || (!IsSpace(r[0]) && !IsSpace(r[|r| - 1]))
  {
    var n := LeadingSpaces(s);
    var l := s[n..];
    assert forall j :: n <= j < |s| ==> s[j] == l[j - n];
    RStrip(l)
  }

  lemma {:induction false} LeadingSpacesPadded(a: string, b: string)
    requires AllSpace(a)
    requires b == [] || !IsSpace(b[0])
    ensures LeadingSpaces(a + b) == |a|
    decreases |a|
  {
    if a != [] {
      assert (a + b)[1..] == a[1..] + b;
      LeadingSpacesPadded(a[1..], b);
    } else {
      assert a + b == b;
    }
  }

  lemma LStripPadded(a: string, b: string)
    requires AllSpace(a)
    requires b == [] || !IsSpace(b[0])
    ensures LStrip(a + b) == b
  {
    LeadingSpacesPadded(a, b);
    assert (a + b)[|a|..] == b;
  }

  lemma {:induction false} TrailingSpacesPadded(a: string, b: string)
    requires AllSpace(b)
    requires a == [] || !IsSpace(a[|a| - 1])
    ensures TrailingSpaces(a + b) == |b|
    decreases |b|
  {
    if b != [] {
      assert (a + b)[..|a + b| - 1] == a + b[..|b| - 1];
      TrailingSpacesPadded(a, b[..|b| - 1]);
    } else {
      assert a + b == a;
    }
  }

  lemma RStripPadded(a: string, b: string)
    requires AllSpace(b)
    requires a == [] || !IsSpace(a[|a| - 1])
    ensures RStrip(a + b) == a
  {
    TrailingSpacesPadded(a, b);
    assert (a + b)[..|a|] == a;
  }

  /** Stripping undoes padding: whitespace around a core that neither starts nor ends with whitespace goes away. */
  lemma StripPadded(lead: string, core: string, trail: string)
    requires AllSpace(lead) && AllSpace(trail)
    requires core == [] || (!IsSpace(core[0]) && !IsSpace(core[|core| - 1]))
    ensures Strip(lead + core + trail) == core
  {
    if core == [] {
      assert AllSpace(lead + core + trail);
    } else {
      assert lead + core + trail == lead + (core + trail);
      LStripPadded(lead, core + trail);
      RStripPadded(core, trail);
    }
  }

  /** Index of the first whitespace character of `s`, or `|s|` when there is none. */
  function FirstSpace(s: string): (i: nat)
    ensures i <= |s|
    ensures forall j :: 0 <= j < i ==> !IsSpace(s[j])
    ensures i < |s| ==> IsSpace(s[i])
  {
    if s == [] || IsSpace(s[0]) then 0 else FirstSpace(s[1..]) + 1
  }

  /**
    `s.split(None, 1)`: the first whitespace-delimited word and, when something other than
    whitespace follows it, the rest of the string with its leading whitespace removed.
  */
  function SplitFirstWord(s: string): (parts: seq<string>)
    ensures |parts| <= 2
    ensures parts == [] <==> AllSpace(s)
    ensures |parts| >= 1 ==> parts[0] != [] && NoSpace(parts[0])
    ensures |parts| == 2 ==> parts[1] != [] && !IsSpace(parts[1][0])
  {
    var t := LStrip(s);
    LStripEmpty(s);
    if t == [] then []
    else
      var i := FirstSpace(t);
      var word := t[..i];
      var rest := LStrip(t[i..]);
      if rest == [] then [word] else [word, rest]
  }

  lemma LStripEmpty(s: string)
    ensures LStrip(s) == [] <==> AllSpace(s)
  {
    var t := LStrip(s);
    if t != [] {
      assert t[0] == s[LeadingSpaces(s)];
    }
  }

  /**
    The decomposition `SplitFirstWord` inverts: optional leading whitespace, a word, then
    either nothing but whitespace or a whitespace gap followed by the rest of the line.
  */
  lemma SplitFirstWordOf(lead: string, word: string, gap: string, rest: string)
    requires AllSpace(lead) && AllSpace(gap)
    requires word != [] && NoSpace(word)
    requires rest == [] || (gap != [] && !IsSpace(rest[0]))
    ensures SplitFirstWord(lead + word + gap + rest) == if rest == [] then [word] else [word, rest]
  {
    var t := word + (gap + rest);
    assert lead + word + gap + rest == lead + t;
    LStripPadded(lead, t);
    assert LStrip(lead + t) == t;
    FirstSpaceOf(word, gap + rest);
    assert t[..|word|] == word;
    assert t[|word|..] == gap + rest;
    LStripPadded(gap, rest);
  }

  lemma {:induction false} FirstSpaceOf(word: string, tail: string)
    requires NoSpace(word)
    requires tail == [] || IsSpace(tail[0])
    ensures FirstSpace(word + tail) == |word|
    decreases |word|
  {
    if word != [] {
      assert (word + tail)[1..] == word[1..] + tail;
      FirstSpaceOf(word[1..], tail);
    }
  }

  predicate EndsWith(s: string, suffix: string) {
    |suffix| <= |s| && s[|s| - |suffix|..] == suffix
  }

  predicate StartsWith(s: string, prefix: string) {
    |prefix| <= |s| && s[..|prefix|] == prefix
  }

  /** `s.replace(pat, repl)`: every occurrence, scanned left to right without overlap. */
  function ReplaceAll(s: string, pat: string, repl: string): (r: string)
    requires pat != []
    ensures |repl| >= |pat| ==> |r| >= |s|
    decreases |s|
  {
    if s == [] then []
    else if StartsWith(s, pat) then repl + ReplaceAll(s[|pat|..], pat, repl)
    else [s[0]] + ReplaceAll(s[1..], pat, repl)
  }

  /** A string in which the pattern never occurs comes back unchanged. */
  lemma {:induction false} ReplaceAllFree(s: string, pat: string, repl: string)
    requires pat != [] && Free(s, pat)
    ensures ReplaceAll(s, pat, repl) == s
    decreases |s|
  {
    if s != [] {
      assert s[0..] == s;
      assert Free(s[1..], pat) by {
        forall i | 0 <= i < |s[1..]| ensures !StartsWith(s[1..][i..], pat) {
          assert s[1..][i..] == s[i + 1..];
        }
      }
      ReplaceAllFree(s[1..], pat, repl);
    }
  }

  /**
    The first occurrence is replaced and the scan goes on after it: when `pat` first occurs in
    `a + pat + b` right after `a`, the result is `a`, the replacement, then `b` replaced.
  */
  lemma {:induction false} ReplaceAllFirst(a: string, pat: string, b: string, repl: string)
    requires pat != []
    requires forall i :: 0 <= i < |a| ==> !StartsWith((a + pat)[i..], pat)
    ensures ReplaceAll(a + pat + b, pat, repl) == a + repl + ReplaceAll(b, pat, repl)
    decreases |a|
  {
    var s := a + pat + b;
    if a == [] {
      assert s == pat + b && StartsWith(s, pat);
      assert s[|pat|..] == b;
    } else {
      assert !StartsWith(s, pat) by {
        assert (a + pat)[0..] == a + pat;
        assert s[..|pat|] == (a + pat)[..|pat|];
      }
      assert s[1..] == a[1..] + pat + b;
      forall i | 0 <= i < |a[1..]| ensures !StartsWith((a[1..] + pat)[i..], pat) {
        assert (a[1..] + pat)[i..] == (a + pat)[i + 1..];
      }
      var rest := ReplaceAll(b, pat, repl);
      calc {
        ReplaceAll(s, pat, repl);
        [s[0]] + ReplaceAll(a[1..] + pat + b, pat, repl);
        { ReplaceAllFirst(a[1..], pat, b, repl); }
        [a[0]] + (a[1..] + repl + rest);
        { assert [a[0]] + a[1..] == a; }
        a + repl + rest;
      }
    }
  }

  /** `pat` occurs nowhere inside `s`. */
  predicate Free(s: string, pat: string) {
    forall i :: 0 <= i < |s| ==> !StartsWith(s[i..], pat)
  }

  /**
    Replacing a pattern that occurs in `p + pat` only at its very end replaces just that
    final occurrence.
  */
  lemma {:induction false} ReplaceAllAtEnd(p: string, pat: string, repl: string)
    requires pat != []
    requires forall i :: 0 <= i < |p| ==> !StartsWith((p + pat)[i..], pat)
    ensures ReplaceAll(p + pat, pat, repl) == p + repl
    decreases |p|
  {
    var s := p + pat;
    if p == [] {
      assert StartsWith(s, pat);
      assert s[|pat|..] == [];
    } else {
      assert !StartsWith(s[0..], pat);
      assert s[0..] == s;
      assert s[1..] == p[1..] + pat;
      forall i | 0 <= i < |p[1..]| ensures !StartsWith((p[1..] + pat)[i..], pat) {
        assert (p[1..] + pat)[i..] == s[i + 1..];
      }
      ReplaceAllAtEnd(p[1..], pat, repl);
      assert [s[0]] + (p[1..] + repl) == p + repl;
    }
  }

  /** `s.split(sep)`: the pieces between consecutive separators, empty ones included. */
  function SplitOn(s: string, sep: char): (parts: seq<string>)
    ensures |parts| >= 1
    ensures forall k :: 0 <= k < |parts| ==> sep !in parts[k]
    ensures JoinWith(parts, sep) == s
    ensures |parts| == Count(s, sep) + 1
    decreases |s|
  {
    if sep !in s then
      CountAbsent(s, sep);
      [s]
    else
      var i := IndexOf(s, sep);
      var tail := SplitOn(s[i + 1..], sep);
      var parts := [s[..i]] + tail;
      assert parts[1..] == tail;
      assert s == s[..i] + [sep] + s[i + 1..];
      CountAppend(s[..i] + [sep], s[i + 1..], sep);
      CountAppend(s[..i], [sep], sep);
      CountAbsent(s[..i], sep);
      assert Count([sep], sep) == 1 by { assert [sep][1..] == []; }
      parts
  }

  /** The inverse of `SplitOn`: the pieces glued back with the separator between them. */
  function JoinWith(parts: seq<string>, sep: char): string
    requires |parts| >= 1
  {
    if |parts| == 1 then parts[0] else parts[0] + [sep] + JoinWith(parts[1..], sep)
  }

  function IndexOf(s: string, c: char): (i: nat)
    requires c in s
    ensures i < |s| && s[i] == c && c !in s[..i]
  {
    if s[0] == c then 0
    else
      var j := IndexOf(s[1..], c);
      assert s[..j + 1] == [s[0]] + s[1..][..j];
      j + 1
  }

  lemma {:induction false} IndexOfAfter(a: string, c: char, b: string)
    requires c !in a
    ensures IndexOf(a + [c] + b, c) == |a|
  {
    if a != [] {
      assert (a + [c] + b)[1..] == a[1..] + [c] + b;
      IndexOfAfter(a[1..], c, b);
    }
  }

  /** Number of occurrences of `c` in `s`. */
  function Count(s: string, c: char): nat {
    if s == [] then 0 else (if s[0] == c then 1 else 0) + Count(s[1..], c)
  }

  lemma {:induction false} CountAbsent(s: string, c: char)
    requires c !in s
    ensures Count(s, c) == 0
  {
    if s != [] { CountAbsent(s[1..], c); }
  }

  lemma {:induction false} CountAppend(a: string, b: string, c: char)
    ensures Count(a + b, c) == Count(a, c) + Count(b, c)
  {
    if a != [] {
      assert (a + b)[1..] == a[1..] + b;
      assert (a + b)[0] == a[0];
      CountAppend(a[1..], b, c);
      assert Count(a + b, c) == (if a[0] == c then 1 else 0) + Count(a[1..] + b, c);
    } else {
      assert a + b == b;
    }
  }

  /** Splitting a string built by joining separator-free pieces gives the pieces back. */
  lemma {:induction false} SplitJoin(parts: seq<string>, sep: char)
    requires |parts| >= 1
    requires forall k :: 0 <= k < |parts| ==> sep !in parts[k]
    ensures SplitOn(JoinWith(parts, sep), sep) == parts
    decreases |parts|
  {
    var s := JoinWith(parts, sep);
    if |parts| > 1 {
      var rest := JoinWith(parts[1..], sep);
      assert s == parts[0] + [sep] + rest;
      assert sep in s by { assert s[|parts[0]|] == sep; }
      IndexOfAfter(parts[0], sep, rest);
      var i := IndexOf(s, sep);
      assert s[..i] == parts[0];
      assert s[i + 1..] == rest;
      SplitJoin(parts[1..], sep);
    }
  }

  predicate IsDigit(c: char) { '0' <= c <= '9' }

  /** The value of a string of decimal digits. */
  function DigitsValue(s: string): nat
    requires forall i :: 0 <= i < |s| ==> IsDigit(s[i])
  {
    if s == [] then 0
    else
      var d := s[|s| - 1] as int - '0' as int;
      assert IsDigit(s[|s| - 1]);
      DigitsValue(s[..|s| - 1]) * 10 + d
  }

  /** A non-empty run of decimal digits. */
  predicate Digits(s: string) {
    s != [] && forall i :: 0 <= i < |s| ==> IsDigit(s[i])
  }

  /** A non-empty run of decimal digits and its value; anything else is not a number. */
  function ParseDigits(s: string): (r: Option<nat>)
    ensures r.Some? <==> s != [] && forall i :: 0 <= i < |s| ==> IsDigit(s[i])
  {
    if s != [] && forall i :: 0 <= i < |s| ==> IsDigit(s[i]) then Some(DigitsValue(s)) else None
  }

  /** The shortest decimal spelling of a natural number. */
  function Decimal(n: nat): (s: string)
    ensures s != [] && forall i :: 0 <= i < |s| ==> IsDigit(s[i])
  {
    var d := [(('0' as int) + n % 10) as char];
    if n < 10 then d else Decimal(n / 10) + d
  }

  /** Parsing the decimal spelling of a number gives the number back. */
  lemma {:induction false} ParseDecimal(n: nat)
    ensures ParseDigits(Decimal(n)) == Some(n)
  {
    var s := Decimal(n);
    var d := (('0' as int) + n % 10) as char;
    assert s[|s| - 1] == d;
    assert d as int - '0' as int == n % 10;
    if n >= 10 {
      ParseDecimal(n / 10);
      assert s[..|s| - 1] == Decimal(n / 10);
    } else {
      assert s[..|s| - 1] == [];
      assert DigitsValue(s) == n;
    }
  }

  /** An optional sign followed by decimal digits: the integers `pd.to_numeric` reads. */
  function ParseSigned(s: string): (r: Option<int>)
    ensures r.Some? ==> s != []
    ensures r.Some? <==> Digits(s) || (s != [] && (s[0] == '-' || s[0] == '+') && Digits(s[1..]))
    ensures Digits(s) ==> r == Some(DigitsValue(s))
    ensures s != [] && s[0] == '-' && Digits(s[1..]) ==> r.Some? && r.value == -(DigitsValue(s[1..]) as int)
    ensures s != [] && s[0] == '+' && Digits(s[1..]) ==> r == Some(DigitsValue(s[1..]))
  {
    if s != [] && (s[0] == '-' || s[0] == '+') then
      match ParseDigits(s[1..])
      case None => None
      case Some(n) =>
        var v: int := if s[0] == '-' then -(n as int) else n as int;
        Some(v)
    else
      match ParseDigits(s)
      case None => None
      case Some(n) => Some(n)
  }

  /** Digits with single underscores allowed between them, as Python's `int(...)` accepts. */
  predicate UnderscoredDigits(s: string) {
    && s != [] && IsDigit(s[0]) && IsDigit(s[|s| - 1])
    && (forall i :: 0 <= i < |s| ==> IsDigit(s[i]) || s[i] == '_')
    && (forall i :: 0 <= i < |s| - 1 ==> !(s[i] == '_' && s[i + 1] == '_'))
  }

  function DropUnderscores(s: string): (r: string)
    ensures forall i :: 0 <= i < |r| ==> r[i] != '_' && r[i] in s
  {
    if s == [] then [] else (if s[0] == '_' then [] else [s[0]]) + DropUnderscores(s[1..])
  }

  /**
    Python's `int(s)` on a string: surrounding whitespace, an optional sign, then digits
    (underscores allowed between digits). `None` stands for the `ValueError` it raises.
  */
  function PythonInt(s: string): (r: Option<int>)
    ensures r.Some? ==> !AllSpace(s)
  {
    IntLiteral(Strip(s))
  }

  /** An optional sign and underscored digits, nothing else. */
  function IntLiteral(t: string): (r: Option<int>)
    ensures r.Some? ==> t != []
    ensures r.Some? <==> UnderscoredDigits(t) || (t != [] && (t[0] == '-' || t[0] == '+') && UnderscoredDigits(t[1..]))
  {
    if t != [] && (t[0] == '-' || t[0] == '+') then
      if UnderscoredDigits(t[1..]) then
        var n := UnderscoredValue(t[1..]);
        var v: int := if t[0] == '-' then -(n as int) else n as int;
        Some(v)
      else None
    else if UnderscoredDigits(t) then Some(UnderscoredValue(t))
    else None
  }

  /** The value of a literal: its digits' value, negated after a minus sign. */
  lemma IntLiteralValue(t: string)
    ensures UnderscoredDigits(t) ==> IntLiteral(t) == Some(UnderscoredValue(t))
    ensures t != [] && t[0] == '-' && UnderscoredDigits(t[1..]) ==> IntLiteral(t) == Some(-(UnderscoredValue(t[1..]) as int))
    ensures t != [] && t[0] == '+' && UnderscoredDigits(t[1..]) ==> IntLiteral(t) == Some(UnderscoredValue(t[1..]) as int)
  {
  }

  /** The value of digits with underscores between them. */
  function UnderscoredValue(s: string): nat
    requires UnderscoredDigits(s)
  {
    var digits := DropUnderscores(s);
    assert forall i :: 0 <= i < |digits| ==> IsDigit(digits[i]);
    DigitsValue(digits)
  }

  lemma {:induction false} DropUnderscoresNone(s: string)
    requires forall i :: 0 <= i < |s| ==> s[i] != '_'
    ensures DropUnderscores(s) == s
  {
    if s != [] {
      DropUnderscoresNone(s[1..]);
      assert [s[0]] + s[1..] == s;
    }
  }

  /** A string that neither starts nor ends with whitespace is its own strip. */
  lemma StripUnpadded(s: string)
    requires s != [] && !IsSpace(s[0]) && !IsSpace(s[|s| - 1])
    ensures Strip(s) == s
  {
    assert [] + s + [] == s;
    StripPadded([], s, []);
  }

  /** Digits carry no surrounding whitespace to strip. */
  lemma StripDigits(s: string)
    requires s != [] && forall i :: 0 <= i < |s| ==> IsDigit(s[i])
    ensures Strip(s) == s
  {
    assert [] + s + [] == s;
    assert !IsSpace(s[0]) && !IsSpace(s[|s| - 1]);
    StripPadded([], s, []);
  }

  lemma DigitsAreUnderscored(s: string)
    requires s != [] && forall i :: 0 <= i < |s| ==> IsDigit(s[i])
    ensures UnderscoredDigits(s)
  {
  }

  /** A plain run of digits is an integer literal with the value of its digits. */
  lemma IntLiteralDigits(s: string)
    requires s != [] && forall i :: 0 <= i < |s| ==> IsDigit(s[i])
    ensures IntLiteral(s) == Some(DigitsValue(s))
  {
    DigitsAreUnderscored(s);
    DropUnderscoresNone(s);
    assert UnderscoredValue(s) == DigitsValue(s);
  }

  /** `int(s)` of a plain run of decimal digits is the value of the digits. */
  lemma PythonIntDigits(s: string)
    requires s != [] && forall i :: 0 <= i < |s| ==> IsDigit(s[i])
    ensures PythonInt(s) == Some(DigitsValue(s))
  {
    StripDigits(s);
    IntLiteralDigits(s);
  }

  /** `int` reads a minus sign before digits as the negated value of the digits. */
  lemma PythonIntNegative(n: nat)
    ensures PythonInt("-" + Decimal(n)) == Some(-(n as int))
  {
    var digits := Decimal(n);
    var s := "-" + digits;
    assert s != [] && s[0] == '-' && s[1..] == digits;
    assert Strip(s) == s by {
      StripUnpadded(s);
    }
    assert UnderscoredDigits(digits) by {
      DigitsAreUnderscored(digits);
    }
    assert UnderscoredValue(digits) == n by {
      DropUnderscoresNone(digits);
      ParseDecimal(n);
    }
    calc {
      PythonInt(s);
      IntLiteral(Strip(s));
      IntLiteral(s);
      { IntLiteralValue(s); }
      Some(-(UnderscoredValue(digits) as int));
    }
  }

  /** `int` reads back the decimal spelling of every natural number. */
  lemma PythonIntDecimal(n: nat)
    ensures PythonInt(Decimal(n)) == Some(n)
  {
    ParseDecimal(n);
    PythonIntDigits(Decimal(n));
  }
}

=== FILE: topics.dfy ===
/**
  The combined topic pattern of `prepare_full_tables`: an alternation of word-bounded
  literals, some with optional endings, searched case-insensitively (`contains_topic`).
*/
module Topics {
  import opened Keywords

  /**
    One alternative `\b<stem>(?:e1|e2|...)?\b`: the stem followed by one of the endings,
    where an optional group contributes the empty ending.
  */
  datatype Alternative = Alternative(stem: string, endings: seq<string>)

  /** The thirteen alternatives, in the order they are joined with '|'. */
  const TopicPatterns: seq<Alternative> := [
    Alternative("reaim", [""]),
    Alternative("reaim summit", [""]),
    Alternative("artificial intelligence", [""]),
    Alternative("ai", [""]),
    Alternative("military technolog", ["y", "ies", ""]),
    Alternative("defense technolog", ["y", "ies", ""]),
    Alternative("machine learning", [""]),
    Alternative("deep learning", [""]),
    Alternative("neural network", ["s", ""]),
    Alternative("drone", ["s", ""]),
    Alternative("autonomous", [""]),
    Alternative("cyber warfare", [""]),
    Alternative("military", [""])
  ]

  /** Some ending completes the stem to a whole word of `text`. */
  function AnyEnding(text: string, stem: string, endings: seq<string>): (r: bool)
    ensures r <==> exists e :: e in endings && OccursAsWord(text, stem + e)
  {
    if endings == [] then false
    else Search(text, stem + endings[0]) || AnyEnding(text, stem, endings[1..])
  }

  /** `pattern.search(text)` for an alternation: some alternative matches somewhere. */
  function AnyAlternative(text: string, alts: seq<Alternative>): (r: bool)
    ensures r <==> exists a, e :: a in alts && e in a.endings && OccursAsWord(text, a.stem + e)
  {
    if alts == [] then false
    else AnyEnding(text, alts[0].stem, alts[0].endings) || AnyAlternative(text, alts[1..])
  }

  /** `contains_topic(text)`. */
  function ContainsTopic(text: string): (r: bool)
    ensures r <==> exists a, e :: a in TopicPatterns && e in a.endings && OccursAsWord(text, a.stem + e)
  {
    AnyAlternative(text, TopicPatterns)
  }

  /** The literal words an alternation matches: every stem with every one of its endings. */
  function Words(alts: seq<Alternative>): (words: seq<string>)
  {
    if alts == [] then []
    else Completions(alts[0].stem, alts[0].endings) + Words(alts[1..])
  }

  function Completions(stem: string, endings: seq<string>): (words: seq<string>)
    ensures |words| == |endings|
    ensures forall k :: 0 <= k < |endings| ==> words[k] == stem + endings[k]
  {
    if endings == [] then [] else [stem + endings[0]] + Completions(stem, endings[1..])
  }

  lemma {:induction false} WordsMembership(alts: seq<Alternative>, w: string)
    ensures w in Words(alts) <==> exists a, e :: a in alts && e in a.endings && w == a.stem + e
  {
    if alts != [] {
      WordsMembership(alts[1..], w);
      var c := Completions(alts[0].stem, alts[0].endings);
      assert w in c <==> exists e :: e in alts[0].endings && w == alts[0].stem + e by {
        if w in c {
          var k :| 0 <= k < |c| && c[k] == w;
          assert alts[0].endings[k] in alts[0].endings;
        }
      }
      assert forall a :: a in alts <==> a == alts[0] || a in alts[1..];
    }
  }

  /**
    The two matching passes agree on literal words: searching the alternation is the same as
    `contains_keyword` over the words it spells out.
  */
  lemma AlternationIsKeywordSearch(text: string, alts: seq<Alternative>)
    ensures AnyAlternative(text, alts) == ContainsKeyword(text, Words(alts))
  {
    forall w | w in Words(alts) && OccursAsWord(text, w)
      ensures exists a, e :: a in alts && e in a.endings && OccursAsWord(text, a.stem + e)
    {
      WordsMembership(alts, w);
    }
    forall a, e | a in alts && e in a.endings && OccursAsWord(text, a.stem + e)
      ensures exists w :: w in Words(alts) && OccursAsWord(text, w)
    {
      WordsMembership(alts, a.stem + e);
    }
  }

  /** `contains_topic` is `contains_keyword` with the words of the topic pattern. */
  lemma ContainsTopicIsKeywordSearch(text: string)
    ensures ContainsTopic(text) == ContainsKeyword(text, Words(TopicPatterns))
  {
    AlternationIsKeywordSearch(text, TopicPatterns);
  }

  /** "Drones" opening a text is a topic: the `drone` alternative with its optional `s`, in any case. */
  lemma DronesIsTopic(s: string, rest: string)
    requires s == "Drones" + rest && (rest == [] || !IsWordChar(rest[0]))
    ensures ContainsTopic(s)
  {
    var drone := TopicPatterns[9];
    assert drone in TopicPatterns && "s" in drone.endings;
    var w := drone.stem + "s";
    assert w == "drones";
    assert s == [] + "Drones" + rest;
    WordBetween([], "Drones", rest);
    assert LiteralAt(s, 0, w) by {
      forall j | 0 <= j < |w| ensures Fold(s[j]) == Fold(w[j]) {
        assert Fold(s[j]) == Fold("Drones"[j]);
      }
    }
    TopicAt(s, drone, "s", 0);
  }

  /** "military technologies" closing a text is a topic, through the `ies` ending. */
  lemma TechnologiesIsTopic(s: string, lead: string)
    requires s == lead + "military technologies" && (lead == [] || !IsWordChar(lead[|lead| - 1]))
    ensures ContainsTopic(s)
  {
    var mil := TopicPatterns[4];
    assert mil in TopicPatterns && "ies" in mil.endings;
    assert mil.stem + "ies" == "military technologies";
    assert s == lead + "military technologies" + "";
    WordBetween(lead, "military technologies", "");
    TopicAt(s, mil, "ies", |lead|);
  }

  /** A word standing between non-word characters (or the ends of the text) matches there. */
  lemma WordBetween(pre: string, w: string, post: string)
    requires w != [] && IsWordChar(w[0]) && IsWordChar(w[|w| - 1])
    requires pre == [] || !IsWordChar(pre[|pre| - 1])
    requires post == [] || !IsWordChar(post[0])
    ensures WholeWordAt(pre + w + post, |pre|, w)
  {
    var s := pre + w + post;
    assert s[|pre|..|pre| + |w|] == w;
    ExactLiteral(s, |pre|, w);
    if pre != [] {
      assert s[|pre| - 1] == pre[|pre| - 1];
    }
    if post != [] {
      assert s[|pre| + |w|] == post[0];
    }
  }

  /** One alternative with one of its endings, matched as a word, makes the text a topic. */
  lemma TopicAt(s: string, a: Alternative, e: string, i: nat)
    requires a in TopicPatterns && e in a.endings && i <= |s| && WholeWordAt(s, i, a.stem + e)
    ensures ContainsTopic(s)
  {
    assert OccursAsWord(s, a.stem + e);
  }

  /** A word copied at the end of a text, after a non-word character, matches there. */
  lemma WordAtEnd(s: string, i: nat, w: string)
    requires 0 < i && i + |w| == |s| && s[i..] == w && w != []
    requires !IsWordChar(s[i - 1]) && IsWordChar(w[0]) && IsWordChar(w[|w| - 1])
    ensures WholeWordAt(s, i, w)
  {
    ExactLiteral(s, i, w);
  }

  /** A literal copy of the word matches whatever the case. */
  lemma ExactLiteral(s: string, i: nat, w: string)
    requires i + |w| <= |s| && s[i..i + |w|] == w
    ensures LiteralAt(s, i, w)
  {
    forall j | 0 <= j < |w| ensures s[i + j] == w[j] {
      assert s[i..i + |w|][j] == s[i + j];
    }
  }

  lemma TooLong(text: string, w: string)
    requires |w| > |text|
    ensures !OccursAsWord(text, w)
  {
  }

  /** Every alternative but `ai` spells words of at least five letters. */
  lemma ShortestAlternatives(a: Alternative)
    requires a in TopicPatterns
    ensures a == Alternative("ai", [""]) || |a.stem| >= 5
  {
  }

  /** "said" does not trigger `\bai\b`, and nothing else in the pattern fits in it. */
  lemma SaidIsNoTopic(s: string)
    requires s == "said"
    ensures !ContainsTopic(s)
  {
    forall a, e | a in TopicPatterns && e in a.endings ensures !OccursAsWord(s, a.stem + e) {
      ShortestAlternatives(a);
      if a == Alternative("ai", [""]) {
        assert a.stem + e == "ai";
        AiIsAWordNotASubstring();
      } else {
        TooLong(s, a.stem + e);
      }
    }
  }

  /**
    The keyword "drone" used at selection misses "drones", which the topic pattern matches:
    the selection pass and the enrichment pass can disagree on the same text.
  */
  lemma PluralOnlyMatchedByTopic(s: string)
    requires s == "drones"
    ensures !ContainsKeyword(s, ["drone"])
    ensures ContainsTopic(s)
  {
    forall i: nat | i <= |s| ensures !WholeWordAt(s, i, "drone") {
      if i == 0 {
        assert WordAt(s, 4) && WordAt(s, 5);
      } else if i == 1 {
        assert Fold(s[1]) != Fold('d');
      } else {
        assert i + 5 > |s|;
      }
    }
    var drone := TopicPatterns[9];
    assert drone in TopicPatterns && "s" in drone.endings;
    assert WholeWordAt(s, 0, drone.stem + "s");
  }
}

=== FILE: wrappers.dfy ===
/** Optional values and fallible results, shared by every module of the model. */
module Wrappers {

  /** A value that may be missing (pandas' NaN / Python's None). */
  datatype Option<+T> = None | Some(value: T)

  /** The outcome of a step that may raise: `Err` carries the exception the script would die with. */
  datatype Result<+T, +E> = Ok(value: T) | Err(error: E)
}
